=== FILE: README.md ===
# PolynomialRegression in Dafny

A model of the least-squares polynomial fitter `DrQue\PolynomialRegression`, with
proofs about it. The fitter has five parts:

- **Power-sum accumulator** (`reset`, `addData`). The object keeps two running sums
  for every exponent k in 0 .. 2(n - 1), where n is the number of coefficients:
  - `xPowers[k]`, the sum of w * x^k;
  - `xyPowers[k]`, the sum of w * y' * x^k.

  Here w is the sample's weight and y' is y minus the contribution of the forced
  coefficients.
- **Normal equations** (first half of `getCoefficients`). For m requested
  coefficients, the sums become an augmented m x (m + 1) matrix:
  - entry (r, c) is `xPowers[r + c]`, a Hankel matrix;
  - the last column holds `xyPowers[r]`.

  Every forced coefficient then has its row and column cleared, a 1 on the
  diagonal and its value on the right-hand side.
- **Gauss-Jordan solver** (second half of `getCoefficients`).
  - The forward pass picks, column by column, the first unfinished row with a
    non-zero entry in that column. It divides that row by the entry and subtracts
    it from every other unfinished row. The order of the pivots is kept in
    `order`.
  - Back-substitution then clears every column above and below its pivot. It reads
    the coefficients off the last column in ascending exponent order.
- **`interpolate`**: the value at x of the polynomial with the given coefficients.
- **Goodness of fit**:
  - `RSquared` computes 1 - SSE / SST;
  - `RAdjusted` computes the adjusted R^2, which is 1 when its denominator would
    be zero.

The modules follow that structure:

| file | module | contents |
|---|---|---|
| `results.dfy` | `Results` | `Option`, `Result` and the failure kinds |
| `polynomial.dfy` | `Polynomial` | `Pow`, `Poly`, Horner's rule, `Interpolate` |
| `linear_system.dfy` | `LinearSystem` | augmented matrices, what it means to solve one, row operations that keep the solution set |
| `gauss_jordan.dfy` | `GaussJordan` | pivot search, normalisation, elimination, forward pass, back-substitution, `Solve` |
| `regression.dfy` | `Regression` | the regression state, `Reset`, forced coefficients, `AddData`, the normal equations, `GetCoefficients` |
| `exact_fit.dfy` | `ExactFit` | noise-free data: samples on a polynomial c, with the forced coefficients taken from c, give a system that c solves |
| `goodness_of_fit.dfy` | `GoodnessOfFit` | the definition of R^2, `RSquared`, `RAdjusted` and the facts about sums of squares they need |

Noise-free data is fitted exactly. Suppose every sample lies on the polynomial
with coefficients c, every forced coefficient is forced to its value in c, and
the sums started from zero. Then c solves the system `getCoefficients` builds for
|c| coefficients. Because a successful solve returns the system's only solution,
a successful fit returns exactly c (`ExactFit.FitNoiseFree`).

Numbers are exact Dafny `real`s. The source works with bcmath decimal strings at a
configured scale. Here there is no scale, so there is no truncation.

Several inputs make the source index past its arrays or divide by zero. The model
reports each of them as a `Failure`:
- asking for more coefficients than were accumulated;
- forcing a coefficient at or beyond the requested count;
- a column without a pivot;
- `RSquared` on empty data;
- `RSquared` on data whose y values are all equal.

Apart from these and the cases under "## Left out", each operation is modelled as
it behaves in the source. Default arguments are kept: `Create` defaults to 3
coefficients, `GetCoefficients` to no requested count (`None`, the source's -1,
which means the accumulated count) and `RSquared` to empty data and no
coefficients.

Other modelling choices:
- The object becomes the immutable record `Regression.State`. Each mutating call
  is a function or method from the old state to the new one.
- The weighting strategy (`src/WeightingInterface.php`) is a function parameter of
  type `nat -> real`. It is asked for the weight at the 1-based sample position.
  `AccumulatePowers`, like the source, multiplies by the weight only when one is
  given. Its contract writes the unweighted case as weight 1
  (`weight.GetOr(1.0)`), which gives the same sums. `WeightAt` does the same for
  a whole state's strategy in `Observed`, the relation `AddData` establishes. Like the source's `$xSum`, its loop keeps a running
  product that is x^k at step k (a loop invariant, not part of the contract).
- The forced coefficients are a sequence of (coefficient, value) pairs with
  distinct keys, in the order they were first set. Setting a key again replaces
  its value in place, as a PHP array does.

The source does not reject a count of 0. `reset` then leaves both sum arrays
empty, because the loop bound (n - 1) * 2 is -2, and so does the model
(`SumCount(0) == 0`).

## Model

| member | source | states |
|---|---|---|
| Regression.Reset | src/DrQue/PolynomialRegression.php:157-174 | Both sum arrays get length 2(n - 1) + 1 and are all zero. The forced coefficients are emptied, the index becomes 0 and the weighting is cleared. The coefficient count is kept. |
| Regression.Create | src/DrQue/PolynomialRegression.php:143-148 | A new regression for n coefficients has count n and is exactly the state `Reset` leaves: both sum arrays of length 2(n - 1) + 1 and all zero, no forced coefficients, index 0 and no weighting. |
| Regression.Put | src/DrQue/PolynomialRegression.php:235 | Storing (c, v) in the forced map makes c's value v and leaves every other key's value as it was. Keys stay distinct. The map grows by one exactly when c was not yet forced. |
| Regression.SetForcedCoefficient | src/DrQue/PolynomialRegression.php:233-256 | After forcing coefficient c to v, getForcedCoefficient(c) returns v. Every other coefficient's forced value is unchanged. The sums, the index, the coefficient count and the weighting are unchanged. |
| Regression.SetWeighting | src/DrQue/PolynomialRegression.php:267-270 | Installs the weighting strategy. The forced coefficients, both sum arrays, the index and the coefficient count are unchanged. |
| Regression.RemoveForced | src/DrQue/PolynomialRegression.php:303-309 | The adjusted y is y minus the sum of v * x^c over the forced pairs (c, v). |
| Regression.AccumulatePowers | src/DrQue/PolynomialRegression.php:311-331 | The k-th sums grow by exactly w * x^k and w * y' * x^k for every k, with w = 1 when no weight is given. Lengths are unchanged. |
| Regression.AddData | src/DrQue/PolynomialRegression.php:292-333 | The index grows by exactly 1. The weight is the strategy's weight at the new 1-based index, or 1 without a strategy. Each sum grows by its weighted term, with y reduced by the forced terms. Count, forced map and weighting stay the same. |
| Regression.RunSums | src/DrQue/PolynomialRegression.php:292-333 | After any run of addData calls, every sum has grown by the weighted power sum over the added samples, and the index by the number of samples. |
| Regression.SumsSinceReset | src/DrQue/PolynomialRegression.php:157-174 | Starting from reset sums, the sums after a run are exactly the weighted power sums and cross sums of the samples. |
| Regression.NormalMatrix | src/DrQue/PolynomialRegression.php:358-369 | The m x (m + 1) matrix has entry (r, c) equal to xPowers[r + c] and last column xyPowers[r]. It has the Hankel layout, so it is symmetric. |
| Regression.NormalMatrixUsesPrefix | src/DrQue/PolynomialRegression.php:358-369 | The matrix for m coefficients uses only xPowers[0 .. 2(m - 1)] and xyPowers[0 .. m - 1]: two sum arrays that agree there give the same matrix. |
| Regression.ForceTerm | src/DrQue/PolynomialRegression.php:380-387 | Forcing coefficient c to v: row c becomes the unit row with v on the right. Column c is zero in every other row. Every other entry is unchanged. |
| Regression.ForcedValue | src/DrQue/PolynomialRegression.php:248-256 | getForcedCoefficient(c) is absent exactly when no forced term is for c. When present, it is the value of a forced term for c. |
| Regression.ForcedMap | src/DrQue/PolynomialRegression.php:248-256 | The forced terms as a map: a key is present exactly when its coefficient is forced, and it maps to the forced value. |
| Regression.ForcedSystemStep | src/DrQue/PolynomialRegression.php:378-388 | Forcing one more coefficient on top of an already-forced system gives that system's structure for the larger map. |
| Regression.ApplyForced | src/DrQue/PolynomialRegression.php:378-388 | After all forced coefficients are applied, each forced coefficient's row is its unit row with its value on the right. Every forced column is zero outside its own row. Every entry in an unforced row and column keeps its Hankel value. |
| Regression.FirstForcedOutOfRange | src/DrQue/PolynomialRegression.php:378-387 | Finds a forced coefficient at or beyond the requested count, where the source would write outside the matrix. It finds nothing exactly when all forced coefficients fit. |
| Regression.GetCoefficients | src/DrQue/PolynomialRegression.php:343-499 | Requesting more coefficients than were accumulated fails, and so does forcing one at or beyond the requested count. On success: m values in ascending exponent order. They satisfy the forced normal equations and are their only solution. Each forced coefficient comes back as exactly its forced value. When the count and the forced coefficients fit, the only failure is a singular matrix at a column below m, and then the forced normal equations have no unique solution. |
| Regression.SystemUsesPrefix | src/DrQue/PolynomialRegression.php:343-369 | Two states that agree on the forced terms and on the sums a count needs produce the same system for that count. |
| Regression.LowerCountSameSystem | src/DrQue/PolynomialRegression.php:194-208 | Asking a larger regression for fewer coefficients builds the same system as a regression accumulated for that count over the same samples. |
| ExactFit.ForcedSplit | src/DrQue/PolynomialRegression.php:303-309 | When no coefficient is forced twice and every forced term gives c's own value, p_c(x) is p_u(x) plus the forced contribution that addData subtracts from y. Here u is c with the forced coefficients set to zero. |
| ExactFit.ExchangeSums | src/DrQue/PolynomialRegression.php:311-331 | Row r of the normal matrix, written as power sums over the samples, times any u equals the sum over the samples of p_u(x) * w * x^r. |
| ExactFit.CrossSumOfFit | src/DrQue/PolynomialRegression.php:303-331 | When every adjusted y equals p_u(x), the cross sum of exponent r is the sum over the samples of p_u(x) * w * x^r. |
| ExactFit.ForcedRowSolved | src/DrQue/PolynomialRegression.php:378-388 | c satisfies a forced coefficient's row when it holds that coefficient's forced value. |
| ExactFit.UnforcedRowSolved | src/DrQue/PolynomialRegression.php:358-388 | c satisfies an unforced row when the sums are the samples' power and cross sums and the samples lie, less the forced terms, on the unforced part of c. |
| ExactFit.NoiseFreeSolves | src/DrQue/PolynomialRegression.php:292-388 | Start from zero sums and add samples that all lie on p_c, with \|c\| at most the count and every forced term for a coefficient of c with c's value. Then the final state is valid, its forced terms fit \|c\| coefficients, and c solves the system getCoefficients builds for \|c\| coefficients. |
| ExactFit.FitNoiseFree | src/DrQue/PolynomialRegression.php:343-499 | On such noise-free data, asking getCoefficients for \|c\| coefficients returns exactly c when it succeeds. Its only possible failure is a column without a pivot. |
| GaussJordan.FindPivot | src/DrQue/PolynomialRegression.php:411-417 | Returns the first row that is not done and has a non-zero entry in the column, or the row count when there is none. |
| GaussJordan.NormalizeRow | src/DrQue/PolynomialRegression.php:426-429 | Entries from the pivot column on are divided by the pivot entry. Earlier entries are unchanged. |
| GaussJordan.SubtractRow | src/DrQue/PolynomialRegression.php:439-446 | Entries from the column on lose factor times the pivot row's entry. Earlier entries are unchanged. |
| GaussJordan.EliminateColumn | src/DrQue/PolynomialRegression.php:434-447 | Every unfinished row has the column's entry times the pivot row subtracted. Finished rows and earlier columns are unchanged. The solution set is kept. |
| GaussJordan.PivotColumn | src/DrQue/PolynomialRegression.php:408-448 | There is no pivot exactly when every unfinished row is zero in the column. With one: the pivot row is marked done, its entry becomes exactly 1, and every still-unfinished row is 0 there. The solution set is kept. |
| GaussJordan.ForwardEliminate | src/DrQue/PolynomialRegression.php:390-449 | When every column finds a pivot, order is a permutation of the rows. Row order[j] has 1 in column j and 0 before it. The solution set is that of the input. When column j finds no pivot, the pivot rows for the earlier columns have that shape, every other row is zero up to and including column j, and the solution set is still that of the input. |
| GaussJordan.BackSubstitute | src/DrQue/PolynomialRegression.php:451-497 | The pivoted columns become the identity. m coefficients are read off in ascending exponent order, and they are the unique solution of the system. |
| GaussJordan.Solve | src/DrQue/PolynomialRegression.php:390-497 | A solved system's m values satisfy the input augmented system, and no other vector does. A failure names a column below m, and then the system has no unique solution. So it succeeds exactly when the system has a unique solution. |
| GaussJordan.KernelVector | src/DrQue/PolynomialRegression.php:408-420 | When column j finds no pivot, there is a vector that is 1 at j and that every row maps to zero. |
| GaussJordan.StalledNotUnique | src/DrQue/PolynomialRegression.php:408-420 | A forward pass that stops at a column without a pivot leaves a system with no unique solution: adding the kernel vector to any solution gives another one. |
| LinearSystem.ScaleRowSameSolutions | src/DrQue/PolynomialRegression.php:426-429 | Dividing one row by a non-zero number does not change the solution set. |
| LinearSystem.SubtractRowsSameSolutions | src/DrQue/PolynomialRegression.php:434-447 | Subtracting multiples of a row from the other rows does not change the solution set. |
| Polynomial.Interpolate | src/DrQue/PolynomialRegression.php:510-531 | The result is the sum of c[k] * x^k over k < \|c\|. It is 0 for no coefficients, agrees with Horner's rule, and uses no state. |
| Polynomial.PolyIsHorner | src/DrQue/PolynomialRegression.php:515-528 | The ascending power-sum evaluation equals nested multiplication. |
| GoodnessOfFit.RSquared | src/DrQue/PolynomialRegression.php:545-573 | The two passes over the data compute exactly R^2 as defined by RSquaredOf: 1 - SSE / SST. Empty data and constant y, where the source divides by zero, give a failure instead. |
| GoodnessOfFit.RSquaredUndefined | src/DrQue/PolynomialRegression.php:553-570 | R^2 is undefined for empty data and for constant y, and in no other case: exactly where the source divides by zero in exact arithmetic. |
| GoodnessOfFit.RSquaredAtMostOne | src/DrQue/PolynomialRegression.php:570 | Where R^2 is defined it is at most 1. It is exactly 1 when and only when the polynomial passes through every sample. |
| GoodnessOfFit.Average | src/DrQue/PolynomialRegression.php:547-553 | The first loop gives the sum of the y values divided by the sample count: the mean. It is reached only with data, because `RSquared` reports empty data first. |
| GoodnessOfFit.ErrorAndMeanSums | src/DrQue/PolynomialRegression.php:556-568 | The loop's two sums are the sum of squared residuals and the sum of squared deviations from the average. |
| GoodnessOfFit.ConstantYIsZeroVariance | src/DrQue/PolynomialRegression.php:565-570 | SST is zero exactly when all y values are equal, so in exact arithmetic that is exactly when the source's division has a zero denominator. |
| GoodnessOfFit.SumOfSquares | src/DrQue/PolynomialRegression.php:563-567 | The accumulated sum of squared errors is never negative. |
| GoodnessOfFit.SumOfSquaresZero | src/DrQue/PolynomialRegression.php:563-567 | A sum of squares is zero exactly when every term is zero. |
| GoodnessOfFit.RAdjusted | src/DrQue/PolynomialRegression.php:594-603 | Exactly 1.0 when N - p - 1 = 0, otherwise 1 - (1 - r2)(N - 1) / (N - p - 1). A perfect fit stays 1. With no predictors and N != 1 it equals r2. With p >= 0, N - p - 1 > 0 and r2 <= 1 it is at most r2. |
| GoodnessOfFit.RAdjustedMonotone | src/DrQue/PolynomialRegression.php:594-603 | For fixed N and p with N >= 1 and N - p - 1 > 0, a larger R^2 never gives a smaller adjusted R^2. |

## Left out

- Decimal scale: bcmath's truncation at the configured scale, string-encoded numbers and the `0 == "0.0000"` comparisons are not modelled. All arithmetic is exact.
- Float conversion: `floatval` in `interpolate` is not modelled. The float arithmetic of `RSquared` and `RAdjusted` is exact real arithmetic here.
- `setDegree`, `setNumberOfCoefficient` and the plain getters are not modelled; they only store or return a field. Changing the count without a reset desynchronises the sum arrays. Operations that need consistent arrays therefore require `Regression.Valid`, which `Reset` establishes.
- Regression.SetForcedCoefficient: the coefficient is a `nat`. The source accepts negative keys, which make `addData` raise x to a negative power and `getCoefficients` write row -1 of the matrix; neither is modelled.
- GoodnessOfFit.RAdjusted: the predictor count and sample size are integers. The source accepts any number, including fractions.
- Regression.GetCoefficients: the default argument -1 is `None`. Other negative counts cannot be expressed, because the count is a `nat`.
- GaussJordan.Solve: when a column has no pivot, the source finishes the forward pass and then reads an unset `order` entry. The model stops at the first such column and reports it, so the partly eliminated matrix the source would go on to build is not modelled.
- GaussJordan.FindPivot: the source reads the row at index `rows` before its bounds check. The model checks bounds first.
- Least-squares optimality of the fit is not stated. The code only builds and solves the normal equations.
- In-place updates of the PHP arrays are modelled as new sequences.
- The numeric test fixtures depend on rounding at a fixed scale. They are not restated.

=== FILE: exact_fit.dfy ===
/**
  Noise-free data. When every sample lies on the polynomial with coefficients c,
  and every forced coefficient is forced to its value in c, then c solves the
  system getCoefficients builds. With the uniqueness clause of GetCoefficients,
  a successful fit therefore returns exactly c. The argument needs only the
  normal equations, not the least-squares optimality of their solution.
 */
module ExactFit {
  import opened Results
  import opened Polynomial
  import opened LinearSystem
  import opened Regression

  /** Every forced term is for a coefficient below |c| and forces it to its value
      in c. */
  predicate AgreesWith(forced: seq<ForcedTerm>, c: seq<real>)
  {
    forall i :: 0 <= i < |forced| ==>
      forced[i].coefficient < |c| && c[forced[i].coefficient] == forced[i].value
  }

  /** No two forced terms are for the same coefficient. */
  predicate PairwiseDistinct(forced: seq<ForcedTerm>)
  {
    forall i, j :: 0 <= i < j < |forced| ==> forced[i].coefficient != forced[j].coefficient
  }

  lemma {:induction false} DistinctKeysPairwise(forced: seq<ForcedTerm>)
    requires DistinctKeys(forced)
    ensures PairwiseDistinct(forced)
  {
    if |forced| > 0 {
      DistinctKeysPairwise(forced[1..]);
      assert !IsForced(forced[1..], forced[0].coefficient);
      forall i, j | 0 <= i < j < |forced|
        ensures forced[i].coefficient != forced[j].coefficient
      {
        assert forced[j] == forced[1..][j - 1];
        if i > 0 {
          assert forced[i] == forced[1..][i - 1];
        }
      }
    }
  }

  /** c with every forced coefficient set to zero. */
  function Unforced(c: seq<real>, forced: seq<ForcedTerm>): (u: seq<real>)
    ensures |u| == |c|
    ensures forall k :: 0 <= k < |c| && IsForced(forced, k) ==> u[k] == 0.0
    ensures forall k :: 0 <= k < |c| && !IsForced(forced, k) ==> u[k] == c[k]
  {
    seq(|c|, k requires 0 <= k < |c| => if IsForced(forced, k) then 0.0 else c[k])
  }

  /** Dropping the last forced term t keeps the hypotheses, and un-forcing all
      terms is un-forcing the others and then setting coefficient t to zero. */
  lemma {:induction false} UnforcedLast(c: seq<real>, forced: seq<ForcedTerm>)
    requires |forced| > 0 && PairwiseDistinct(forced) && AgreesWith(forced, c)
    ensures PairwiseDistinct(forced[..|forced| - 1]) && AgreesWith(forced[..|forced| - 1], c)
    ensures forced[|forced| - 1].coefficient < |c|
    ensures Unforced(c, forced[..|forced| - 1])[forced[|forced| - 1].coefficient] == forced[|forced| - 1].value
    ensures Unforced(c, forced)
      == Unforced(c, forced[..|forced| - 1])[forced[|forced| - 1].coefficient := 0.0]
  {
    var pre, t := forced[..|forced| - 1], forced[|forced| - 1];
    assert forall i :: 0 <= i < |pre| ==> pre[i] == forced[i];
    assert !IsForced(pre, t.coefficient) by {
      assert forall i :: 0 <= i < |pre| ==> pre[i].coefficient != t.coefficient;
    }
    forall k | 0 <= k < |c|
      ensures IsForced(forced, k) <==> IsForced(pre, k) || k == t.coefficient
    {
      if IsForced(pre, k) {
        var i :| 0 <= i < |pre| && pre[i].coefficient == k;
        assert forced[i] == pre[i];
      }
    }
  }

  /** The consequences of UnforcedLast for the polynomial's value, without the
      sequence equality. */
  lemma {:induction false} UnforcedLastPoly(forced: seq<ForcedTerm>, c: seq<real>, x: real)
    requires |forced| > 0 && PairwiseDistinct(forced) && AgreesWith(forced, c)
    ensures forced[|forced| - 1].coefficient < |Unforced(c, forced[..|forced| - 1])|
    ensures Unforced(c, forced[..|forced| - 1])[forced[|forced| - 1].coefficient] == forced[|forced| - 1].value
    ensures Poly(Unforced(c, forced), x)
      == Poly(Unforced(c, forced[..|forced| - 1])[forced[|forced| - 1].coefficient := 0.0], x)
  {
    UnforcedLast(c, forced);
  }

  /** Un-forcing the last forced term lowers the polynomial by its contribution. */
  lemma {:induction false} UnforcedLastValue(forced: seq<ForcedTerm>, c: seq<real>, x: real)
    requires |forced| > 0 && PairwiseDistinct(forced) && AgreesWith(forced, c)
    ensures Poly(Unforced(c, forced), x)
      == Poly(Unforced(c, forced[..|forced| - 1]), x) - TermValue(forced[|forced| - 1], x)
  {
    UnforcedLastPoly(forced, c, x);
    ClearedValue(Unforced(c, forced[..|forced| - 1]), Unforced(c, forced), forced[|forced| - 1], x);
  }

  /** Clearing the coefficient a forced term t is for, when it holds t's value,
      lowers the polynomial by t's contribution. */
  lemma ClearValue(u: seq<real>, t: ForcedTerm, x: real)
    requires t.coefficient < |u| && u[t.coefficient] == t.value
    ensures Poly(u[t.coefficient := 0.0], x) == Poly(u, x) - TermValue(t, x)
  {
    PolyClear(u, t.coefficient, x);
  }

  /** ClearValue for a polynomial v known to equal u with t's coefficient cleared. */
  lemma ClearedValue(u: seq<real>, v: seq<real>, t: ForcedTerm, x: real)
    requires t.coefficient < |u| && u[t.coefficient] == t.value
    requires Poly(v, x) == Poly(u[t.coefficient := 0.0], x)
    ensures Poly(v, x) == Poly(u, x) - TermValue(t, x)
  {
    ClearValue(u, t, x);
  }

  /** The forced terms contribute exactly the forced part of c: the polynomial c
      is its unforced part plus the forced contribution that addData subtracts
      from y. */
  lemma {:induction false} ForcedSplit(forced: seq<ForcedTerm>, c: seq<real>, x: real)
    requires PairwiseDistinct(forced) && AgreesWith(forced, c)
    ensures Poly(c, x) == Poly(Unforced(c, forced), x) + ForcedContribution(forced, x)
    decreases |forced|
  {
    if |forced| == 0 {
      assert Unforced(c, forced) == c;
    } else {
      UnforcedLast(c, forced);
      ForcedSplit(forced[..|forced| - 1], c, x);
      UnforcedLastValue(forced, c, x);
    }
  }

  /** The row of powers x^j against c gives the polynomial's value. */
  lemma {:induction false} DotPowers(row: seq<real>, c: seq<real>, x: real, k: nat)
    requires k <= |row| && k <= |c|
    requires forall j :: 0 <= j < k ==> row[j] == Pow(x, j)
    ensures Dot(row, c, k) == Poly(c[..k], x)
  {
    if k == 0 {
      assert c[..k] == [];
    } else {
      DotPowers(row, c, x, k - 1);
      PolyPrefixStep(c, x, k);
      assert Dot(row, c, k) == Dot(row, c, k - 1) + row[k - 1] * c[k - 1];
      assert row[k - 1] * c[k - 1] == c[k - 1] * Pow(x, k - 1);
      assert Dot(row, c, k) == Poly(c[..k], x);
    }
  }

  /** Row r of the normal matrix written as sums over the samples: the weighted
      power sums of exponents r .. r + m - 1. */
  function PowerRow(w: Option<Weighting>, start: nat, samples: seq<Sample>, r: nat, m: nat): (row: seq<real>)
    ensures |row| == m
  {
    seq(m, k requires 0 <= k < m => WeightedPowerSum(w, start, samples, r + k))
  }

  /** The weight of the last sample times its x to the power r: what that
      sample adds to the sums of exponent r. */
  function LastWeight(w: Option<Weighting>, start: nat, samples: seq<Sample>, r: nat): real
    requires |samples| > 0
  {
    WeightAt(w, start + |samples|) * Pow(samples[|samples| - 1].x, r)
  }

  /** The sum over the samples of p(x_i) * w_i * x_i^r, where p is the polynomial
      with coefficients c. */
  function FitSum(w: Option<Weighting>, start: nat, samples: seq<Sample>, c: seq<real>, r: nat): real
  {
    if |samples| == 0 then 0.0
    else FitSum(w, start, samples[..|samples| - 1], c, r) + Poly(c, samples[|samples| - 1].x) * LastWeight(w, start, samples, r)
  }

  /** The last sample adds p(x) * w * x^r to the fit sum. */
  lemma {:induction false} FitSumStep(w: Option<Weighting>, start: nat, samples: seq<Sample>, c: seq<real>, r: nat)
    requires |samples| > 0
    ensures FitSum(w, start, samples, c, r)
      == FitSum(w, start, samples[..|samples| - 1], c, r) + Poly(c, samples[|samples| - 1].x) * LastWeight(w, start, samples, r)
  {
  }

  /** x^k for k < m. */
  function Powers(x: real, m: nat): (row: seq<real>)
    ensures |row| == m
    ensures forall k :: 0 <= k < m ==> row[k] == Pow(x, k)
  {
    seq(m, k requires 0 <= k < m => Pow(x, k))
  }

  /** W * x^(r + k) == (W * x^r) * x^k. */
  lemma {:induction false} ShiftedPower(W: real, x: real, r: nat, k: nat)
    ensures W * Pow(x, r + k) == (W * Pow(x, r)) * Pow(x, k)
  {
    PowAdd(x, r, k);
    assert W * Pow(x, r + k) == W * (Pow(x, r) * Pow(x, k));
  }

  /** The power sum of exponent r + k grows by (w * x^r) * x^k when a sample
      (x, y) of weight w is added. */
  lemma {:induction false} PowerSumShift(w: Option<Weighting>, start: nat, samples: seq<Sample>, r: nat, k: nat)
    requires |samples| > 0
    ensures WeightedPowerSum(w, start, samples, r + k)
      == WeightedPowerSum(w, start, samples[..|samples| - 1], r + k)
        + LastWeight(w, start, samples, r) * Pow(samples[|samples| - 1].x, k)
  {
    var x, W := samples[|samples| - 1].x, WeightAt(w, start + |samples|);
    ShiftedPower(W, x, r, k);
    assert LastWeight(w, start, samples, r) * Pow(x, k) == (W * Pow(x, r)) * Pow(x, k);
  }

  /** Entry k of the row grows by w * x^r * x^k when one more sample is added. */
  lemma {:induction false} PowerRowEntry(w: Option<Weighting>, start: nat, samples: seq<Sample>, r: nat, m: nat, k: nat)
    requires |samples| > 0 && k < m
    ensures PowerRow(w, start, samples, r, m)[k]
      == PowerRow(w, start, samples[..|samples| - 1], r, m)[k]
        + Scale(LastWeight(w, start, samples, r), Powers(samples[|samples| - 1].x, m))[k]
  {
    assert PowerRow(w, start, samples, r, m)[k] == WeightedPowerSum(w, start, samples, r + k);
    assert PowerRow(w, start, samples[..|samples| - 1], r, m)[k] == WeightedPowerSum(w, start, samples[..|samples| - 1], r + k);
    PowerSumShift(w, start, samples, r, k);
  }

  /** One more sample adds w * x^r * x^k to entry k of the row. */
  lemma {:induction false} PowerRowStep(w: Option<Weighting>, start: nat, samples: seq<Sample>, r: nat, m: nat)
    requires |samples| > 0
    ensures |PowerRow(w, start, samples[..|samples| - 1], r, m)| == m
    ensures |Scale(LastWeight(w, start, samples, r), Powers(samples[|samples| - 1].x, m))| == m
    ensures PowerRow(w, start, samples, r, m)
      == Plus(PowerRow(w, start, samples[..|samples| - 1], r, m),
          Scale(LastWeight(w, start, samples, r), Powers(samples[|samples| - 1].x, m)))
  {
    forall k | 0 <= k < m {
      PowerRowEntry(w, start, samples, r, m, k);
    }
  }

  /** The row of powers x^k against c gives p(x), for the polynomial p with
      coefficients c. */
  lemma {:induction false} PowersDot(c: seq<real>, x: real)
    ensures Dot(Powers(x, |c|), c, |c|) == Poly(c, x)
  {
    assert c[..|c|] == c;
    DotPowers(Powers(x, |c|), c, x, |c|);
  }

  /** Against c, the row of one more sample grows by the product of c with
      that sample's row. */
  lemma {:induction false} RowStepDot(w: Option<Weighting>, start: nat, samples: seq<Sample>, c: seq<real>, r: nat)
    requires |samples| > 0
    ensures Dot(PowerRow(w, start, samples, r, |c|), c, |c|)
      == Dot(PowerRow(w, start, samples[..|samples| - 1], r, |c|), c, |c|)
        + Dot(Scale(LastWeight(w, start, samples, r), Powers(samples[|samples| - 1].x, |c|)), c, |c|)
  {
    PowerRowStep(w, start, samples, r, |c|);
    DotOfSum(PowerRow(w, start, samples, r, |c|), PowerRow(w, start, samples[..|samples| - 1], r, |c|),
      Scale(LastWeight(w, start, samples, r), Powers(samples[|samples| - 1].x, |c|)), c, |c|);
  }

  /** Against c, the row of one more sample grows by p(x) * w * x^r. */
  lemma {:induction false} ExchangeStep(w: Option<Weighting>, start: nat, samples: seq<Sample>, c: seq<real>, r: nat)
    requires |samples| > 0
    ensures Dot(PowerRow(w, start, samples, r, |c|), c, |c|)
      == Dot(PowerRow(w, start, samples[..|samples| - 1], r, |c|), c, |c|)
        + Poly(c, samples[|samples| - 1].x) * LastWeight(w, start, samples, r)
  {
    RowStepDot(w, start, samples, c, r);
    LastScaledPowers(w, start, samples, c, r);
  }

  /** The row of the last sample, its powers x^k scaled by its weight w * x^r,
      against c gives p(x) * w * x^r. */
  lemma {:induction false} LastScaledPowers(w: Option<Weighting>, start: nat, samples: seq<Sample>, c: seq<real>, r: nat)
    requires |samples| > 0
    ensures Dot(Scale(LastWeight(w, start, samples, r), Powers(samples[|samples| - 1].x, |c|)), c, |c|)
      == Poly(c, samples[|samples| - 1].x) * LastWeight(w, start, samples, r)
  {
    PowersDot(c, samples[|samples| - 1].x);
    DotScaledValue(Powers(samples[|samples| - 1].x, |c|), LastWeight(w, start, samples, r), c, |c|, Poly(c, samples[|samples| - 1].x));
  }

  /** A row whose product with x is v, scaled by a, has product v * a. */
  lemma {:induction false} DotScaledValue(row: seq<real>, a: real, x: seq<real>, k: nat, v: real)
    requires k <= |row| && k <= |x| && Dot(row, x, k) == v
    ensures Dot(Scale(a, row), x, k) == v * a
  {
    DotScaledRow(row, a, x, k);
  }

  /** A row that is the sum of two rows gives the sum of their products. */
  lemma {:induction false} DotOfSum(row: seq<real>, a: seq<real>, b: seq<real>, x: seq<real>, k: nat)
    requires |a| == |b| && row == Plus(a, b) && k <= |a| && k <= |x|
    ensures Dot(row, x, k) == Dot(a, x, k) + Dot(b, x, k)
  {
    DotRowPlus(a, b, x, k);
  }

  /** Without samples every power sum, and so the whole row, is zero. */
  lemma {:induction false} ExchangeEmpty(w: Option<Weighting>, start: nat, c: seq<real>, r: nat)
    ensures Dot(PowerRow(w, start, [], r, |c|), c, |c|) == 0.0
  {
    forall j | 0 <= j < |c|
      ensures PowerRow(w, start, [], r, |c|)[j] == 0.0
    {
      assert PowerRow(w, start, [], r, |c|)[j] == WeightedPowerSum(w, start, [], r + j);
    }
    DotZero(PowerRow(w, start, [], r, |c|), c, |c|);
  }

  /** The sum over the coefficients of the power sums equals the sum over the
      samples of the polynomial's values: the two sums can be exchanged. */
  lemma {:induction false} ExchangeSums(w: Option<Weighting>, start: nat, samples: seq<Sample>, c: seq<real>, r: nat)
    ensures Dot(PowerRow(w, start, samples, r, |c|), c, |c|) == FitSum(w, start, samples, c, r)
    decreases |samples|
  {
    if |samples| == 0 {
      ExchangeEmpty(w, start, c, r);
    } else {
      ExchangeSums(w, start, samples[..|samples| - 1], c, r);
      ExchangeStep(w, start, samples, c, r);
      FitSumStep(w, start, samples, c, r);
    }
  }

  /** Every sample's y value, less the forced terms, is the polynomial u at x. */
  ghost predicate OnCurve(forced: seq<ForcedTerm>, u: seq<real>, samples: seq<Sample>)
    decreases |samples|
  {
    |samples| > 0 ==>
      && OnCurve(forced, u, samples[..|samples| - 1])
      && samples[|samples| - 1].y - ForcedContribution(forced, samples[|samples| - 1].x) == Poly(u, samples[|samples| - 1].x)
  }

  /** OnCurve holds when the property holds sample by sample. */
  lemma {:induction false} OnCurveEach(forced: seq<ForcedTerm>, u: seq<real>, samples: seq<Sample>)
    requires forall i :: 0 <= i < |samples| ==>
      samples[i].y - ForcedContribution(forced, samples[i].x) == Poly(u, samples[i].x)
    ensures OnCurve(forced, u, samples)
    decreases |samples|
  {
    if |samples| > 0 {
      var pre := samples[..|samples| - 1];
      forall i | 0 <= i < |pre|
        ensures pre[i].y - ForcedContribution(forced, pre[i].x) == Poly(u, pre[i].x)
      {
        assert pre[i] == samples[i];
      }
      OnCurveEach(forced, u, pre);
    }
  }

  /** When the last adjusted y value is u at x, the last sample adds u(x) times
      its weight w * x^r to the cross sum. */
  lemma {:induction false} CrossSumStep(w: Option<Weighting>, forced: seq<ForcedTerm>, start: nat, samples: seq<Sample>, u: seq<real>, r: nat)
    requires |samples| > 0
    requires samples[|samples| - 1].y - ForcedContribution(forced, samples[|samples| - 1].x) == Poly(u, samples[|samples| - 1].x)
    ensures WeightedCrossSum(w, forced, start, samples, r)
      == WeightedCrossSum(w, forced, start, samples[..|samples| - 1], r) + Poly(u, samples[|samples| - 1].x) * LastWeight(w, start, samples, r)
  {
  }

  /** When every adjusted y value is the polynomial u at x, the cross sums are the
      fit sums of u. */
  lemma {:induction false} CrossSumOfFit(w: Option<Weighting>, forced: seq<ForcedTerm>, start: nat, samples: seq<Sample>, u: seq<real>, r: nat)
    requires OnCurve(forced, u, samples)
    ensures WeightedCrossSum(w, forced, start, samples, r) == FitSum(w, start, samples, u, r)
    decreases |samples|
  {
    if |samples| > 0 {
      CrossSumOfFit(w, forced, start, samples[..|samples| - 1], u, r);
      CrossSumStep(w, forced, start, samples, u, r);
    }
  }

  /** A sample on the polynomial c, less the forced terms, lies on the unforced
      part of c. */
  lemma {:induction false} ForcedSplitAt(forced: seq<ForcedTerm>, c: seq<real>, s: Sample)
    requires PairwiseDistinct(forced) && AgreesWith(forced, c)
    requires s.y == Poly(c, s.x)
    ensures s.y - ForcedContribution(forced, s.x) == Poly(Unforced(c, forced), s.x)
  {
    ForcedSplit(forced, c, s.x);
  }

  /** Samples on the polynomial c are, less the forced terms, on its unforced
      part. */
  lemma {:induction false} OnCurveOfFit(forced: seq<ForcedTerm>, c: seq<real>, samples: seq<Sample>)
    requires PairwiseDistinct(forced) && AgreesWith(forced, c)
    requires forall i :: 0 <= i < |samples| ==> samples[i].y == Poly(c, samples[i].x)
    ensures OnCurve(forced, Unforced(c, forced), samples)
    decreases |samples|
  {
    if |samples| > 0 {
      var pre := samples[..|samples| - 1];
      assert forall i :: 0 <= i < |pre| ==> pre[i] == samples[i];
      OnCurveOfFit(forced, c, pre);
      ForcedSplitAt(forced, c, samples[|samples| - 1]);
    }
  }

  /** The sums of a state hold the weighted power and cross sums of the samples. */
  ghost predicate HoldsSums(s: State, w: Option<Weighting>, start: nat, samples: seq<Sample>)
  {
    && (forall k :: 0 <= k < |s.xPowers| ==> s.xPowers[k] == WeightedPowerSum(w, start, samples, k))
    && (forall k :: 0 <= k < |s.xyPowers| ==> s.xyPowers[k] == WeightedCrossSum(w, s.forced, start, samples, k))
  }

  /** A forced row of the system holds for c when c has the forced value there. */
  lemma {:induction false} ForcedRowSolved(s: State, c: seq<real>, r: nat)
    requires Valid(s) && |c| <= s.numberOfCoefficient && ForcedFit(s.forced, |c|)
    requires AgreesWith(s.forced, c) && r < |c| && IsForced(s.forced, r)
    ensures SatisfiesRow(System(s, |c|)[r], c, |c|)
  {
    var m, F, fm := |c|, System(s, |c|), ForcedMap(s.forced);
    assert SumCount(m) <= SumCount(s.numberOfCoefficient);
    ForcedUnit(NormalMatrix(s.xPowers, s.xyPowers, m), fm, m, F, r);
    DotUnit(F[r], c, r, m);
    var i :| 0 <= i < |s.forced| && s.forced[i] == ForcedTerm(r, fm[r]);
  }

  /** Entry k of an unforced row: a forced column is zero in the system and in
      the unforced part of c alike, and any other entry is the power sum of
      exponent r + k, where c is its own unforced part. */
  lemma {:induction false} UnforcedRowTerm(s: State, w: Option<Weighting>, start: nat, samples: seq<Sample>, c: seq<real>, r: nat, k: nat)
    requires Valid(s) && |c| <= s.numberOfCoefficient && ForcedFit(s.forced, |c|)
    requires HoldsSums(s, w, start, samples) && r < |c| && !IsForced(s.forced, r) && k < |c|
    ensures || (System(s, |c|)[r][k] == 0.0 && Unforced(c, s.forced)[k] == 0.0)
            || (System(s, |c|)[r][k] == PowerRow(w, start, samples, r, |c|)[k] && c[k] == Unforced(c, s.forced)[k])
  {
    var m, F, fm := |c|, System(s, |c|), ForcedMap(s.forced);
    assert SumCount(m) <= SumCount(s.numberOfCoefficient);
    var N := NormalMatrix(s.xPowers, s.xyPowers, m);
    if k in fm {
      ForcedZero(N, fm, m, F, r, k);
    } else {
      ForcedKeeps(N, fm, m, F, r, k);
      assert N[r][k] == s.xPowers[r + k];
    }
  }

  /** The right-hand side of an unforced row is the accumulated cross sum of its
      exponent. */
  lemma {:induction false} UnforcedRowRight(s: State, m: nat, r: nat)
    requires Valid(s) && m <= s.numberOfCoefficient && ForcedFit(s.forced, m)
    requires r < m && !IsForced(s.forced, r)
    ensures System(s, m)[r][m] == s.xyPowers[r]
  {
    assert SumCount(m) <= SumCount(s.numberOfCoefficient);
    var N := NormalMatrix(s.xPowers, s.xyPowers, m);
    ForcedKeeps(N, ForcedMap(s.forced), m, System(s, m), r, m);
  }

  /** An unforced row of the system holds for c when the samples lie, less the
      forced terms, on the unforced part of c. */
  lemma {:induction false} UnforcedRowSolved(s: State, w: Option<Weighting>, start: nat, samples: seq<Sample>, c: seq<real>, r: nat)
    requires Valid(s) && |c| <= s.numberOfCoefficient && ForcedFit(s.forced, |c|)
    requires HoldsSums(s, w, start, samples) && r < |c| && !IsForced(s.forced, r)
    requires OnCurve(s.forced, Unforced(c, s.forced), samples)
    ensures SatisfiesRow(System(s, |c|)[r], c, |c|)
  {
    forall k | 0 <= k < |c|
      ensures || (System(s, |c|)[r][k] == 0.0 && Unforced(c, s.forced)[k] == 0.0)
              || (System(s, |c|)[r][k] == PowerRow(w, start, samples, r, |c|)[k] && c[k] == Unforced(c, s.forced)[k])
    {
      UnforcedRowTerm(s, w, start, samples, c, r, k);
    }
    DotMasked(System(s, |c|)[r], c, PowerRow(w, start, samples, r, |c|), Unforced(c, s.forced), |c|);
    ExchangeSums(w, start, samples, Unforced(c, s.forced), r);
    CrossSumOfFit(w, s.forced, start, samples, Unforced(c, s.forced), r);
    UnforcedRowRight(s, |c|, r);
  }

  /** Noise-free data is fitted exactly. Start from zero sums, add samples that
      all lie on the polynomial c, and force only coefficients of c to their
      values in c. Then c satisfies every equation of the system that
      getCoefficients solves for |c| coefficients. */
  lemma {:induction false} NoiseFreeSolves(states: seq<State>, samples: seq<Sample>, c: seq<real>)
    requires IsRun(states, samples) && Valid(states[0])
    requires forall k :: 0 <= k < |states[0].xPowers| ==> states[0].xPowers[k] == 0.0
    requires forall k :: 0 <= k < |states[0].xyPowers| ==> states[0].xyPowers[k] == 0.0
    requires |c| <= states[0].numberOfCoefficient
    requires AgreesWith(states[0].forced, c)
    requires forall i :: 0 <= i < |samples| ==> samples[i].y == Poly(c, samples[i].x)
    ensures var last := states[|samples|];
      && Valid(last) && |c| <= last.numberOfCoefficient && ForcedFit(last.forced, |c|)
      && Solves(System(last, |c|), c, |c|)
  {
    RunSums(states, samples);
    SumsSinceReset(states, samples);
    var first, last := states[0], states[|samples|];
    var w, start := first.weighting, first.index;
    assert Valid(last) && ForcedFit(last.forced, |c|);
    assert HoldsSums(last, w, start, samples);
    DistinctKeysPairwise(last.forced);
    OnCurveOfFit(last.forced, c, samples);
    forall r | 0 <= r < |c|
      ensures SatisfiesRow(System(last, |c|)[r], c, |c|)
    {
      if IsForced(last.forced, r) {
        ForcedRowSolved(last, c, r);
      } else {
        UnforcedRowSolved(last, w, start, samples, c, r);
      }
    }
  }

  /** getCoefficients on noise-free data, asking for |c| coefficients: a
      successful fit returns exactly c, and the only possible failure is a
      system without a unique solution (for instance too few distinct x). */
  method FitNoiseFree(states: seq<State>, samples: seq<Sample>, c: seq<real>) returns (result: Result<seq<real>>)
    requires IsRun(states, samples) && Valid(states[0])
    requires forall k :: 0 <= k < |states[0].xPowers| ==> states[0].xPowers[k] == 0.0
    requires forall k :: 0 <= k < |states[0].xyPowers| ==> states[0].xyPowers[k] == 0.0
    requires |c| <= states[0].numberOfCoefficient
    requires AgreesWith(states[0].forced, c)
    requires forall i :: 0 <= i < |samples| ==> samples[i].y == Poly(c, samples[i].x)
    ensures result.Success? ==> result.value == c
    ensures result.Failure? ==> result.error.SingularMatrix? && result.error.column < |c|
  {
    NoiseFreeSolves(states, samples, c);
    result := GetCoefficients(states[|samples|], Some(|c|));
  }
}

=== FILE: gauss_jordan.dfy ===
/**
  The Gauss-Jordan solver of PolynomialRegression::getCoefficients. The forward
  pass takes the columns in order but may pick pivot rows out of order: `order[j]`
  records the row that became the pivot of column j, and `isDone` flags the rows
  already used. Back-substitution then walks the columns from last to first,
  clearing each pivot column in every row not yet finished, and reads the
  coefficient of each exponent off the right-hand side of its pivot row.
 */
module GaussJordan {
  import opened LinearSystem

  /** The outcome of the forward pass: the reduced matrix with the pivot row of each
      column, or the first column for which no pivot row exists together with the
      matrix and pivot rows reached before it. */
  datatype Forward =
    | Pivoted(matrix: Matrix, order: seq<nat>)
    | NoPivot(column: nat, matrix: Matrix, order: seq<nat>)

  /** The outcome of the whole solver. */
  datatype Solution = Solved(coefficients: seq<real>) | Singular(column: nat)

  /** order lists every row of an m-row matrix exactly once. */
  predicate IsPermutation(order: seq<nat>, m: nat)
  {
    && |order| == m
    && (forall j :: 0 <= j < m ==> order[j] < m)
    && (forall i, j :: 0 <= i < j < m ==> order[i] != order[j])
    && (forall r :: 0 <= r < m ==> r in order)
  }

  /** For each column j < n, row order[j] has 1 in column j and 0 in every column to its left. */
  predicate PivotRows(M: Matrix, order: seq<nat>, n: nat, m: nat)
    requires Shape(M, m) && n <= m && n <= |order| && forall j :: 0 <= j < n ==> order[j] < m
  {
    forall j :: 0 <= j < n ==> M[order[j]][j] == 1.0 && forall k :: 0 <= k < j ==> M[order[j]][k] == 0.0
  }

  /** The number of finished rows. */
  function CountDone(isDone: seq<bool>): nat
  {
    if |isDone| == 0 then 0 else (if isDone[0] then 1 else 0) + CountDone(isDone[1..])
  }

  lemma {:induction false} CountDoneMark(isDone: seq<bool>, i: nat)
    requires i < |isDone| && !isDone[i]
    ensures CountDone(isDone[i := true]) == CountDone(isDone) + 1
    decreases |isDone|
  {
    if i == 0 {
      assert isDone[i := true][1..] == isDone[1..];
    } else {
      assert isDone[i := true][1..] == isDone[1..][i - 1 := true];
      CountDoneMark(isDone[1..], i - 1);
    }
  }

  lemma {:induction false} CountDoneAll(isDone: seq<bool>)
    ensures CountDone(isDone) <= |isDone|
    ensures CountDone(isDone) == |isDone| ==> forall i :: 0 <= i < |isDone| ==> isDone[i]
    decreases |isDone|
  {
    if |isDone| > 0 {
      CountDoneAll(isDone[1..]);
      if CountDone(isDone) == |isDone| {
        forall i | 0 <= i < |isDone|
          ensures isDone[i]
        {
          if i > 0 {
            assert isDone[1..][i - 1] == isDone[i];
          }
        }
      }
    }
  }

  lemma {:induction false} CountDoneNone(m: nat)
    ensures CountDone(seq(m, _ => false)) == 0
  {
    if m > 0 {
      assert seq(m, _ => false)[1..] == seq(m - 1, _ => false);
      CountDoneNone(m - 1);
    }
  }

  /** The position of every row within a permutation. */
  lemma InversePermutation(order: seq<nat>, m: nat) returns (pos: seq<nat>)
    requires IsPermutation(order, m)
    ensures |pos| == m
    ensures forall r :: 0 <= r < m ==> pos[r] < m && order[pos[r]] == r
    ensures forall j :: 0 <= j < m ==> pos[order[j]] == j
  {
    pos := seq(m, r requires 0 <= r < m => IndexOf(order, r));
    forall j | 0 <= j < m
      ensures pos[order[j]] == j
    {
      assert order[pos[order[j]]] == order[j];
    }
  }

  /** Some position of v in s. */
  function IndexOf(s: seq<nat>, v: nat): (i: nat)
    requires v in s
    ensures i < |s| && s[i] == v
  {
    if s[0] == v then 0 else 1 + IndexOf(s[1..], v)
  }

  /** The first row at or after the top that is not finished and has a non-zero
      entry in the column, or m when there is none. */
  method FindPivot(M: Matrix, isDone: seq<bool>, column: nat, m: nat) returns (activeRow: nat)
    requires Shape(M, m) && |isDone| == m && column < m
    ensures activeRow <= m
    ensures activeRow < m ==> !isDone[activeRow] && M[activeRow][column] != 0.0
    ensures forall r :: 0 <= r < activeRow ==> isDone[r] || M[r][column] == 0.0
  {
    activeRow := 0;
    while activeRow < m && (M[activeRow][column] == 0.0 || isDone[activeRow])
      invariant activeRow <= m
      invariant forall r :: 0 <= r < activeRow ==> isDone[r] || M[r][column] == 0.0
    {
      activeRow := activeRow + 1;
    }
  }

  /** Divides the entries of a row from column `from` onwards by the divisor. */
  method NormalizeRow(row: seq<real>, from: nat, divisor: real) returns (row': seq<real>)
    requires from <= |row| && divisor != 0.0
    ensures |row'| == |row|
    ensures forall k :: 0 <= k < from ==> row'[k] == row[k]
    ensures forall k :: from <= k < |row| ==> row'[k] == row[k] / divisor
  {
    row' := row;
    for subColumn := from to |row|
      invariant |row'| == |row|
      invariant forall k :: 0 <= k < from ==> row'[k] == row[k]
      invariant forall k :: from <= k < subColumn ==> row'[k] == row[k] / divisor
      invariant forall k :: subColumn <= k < |row| ==> row'[k] == row[k]
    {
      row' := row'[subColumn := row'[subColumn] / divisor];
    }
  }

  /** Subtracts factor times the pivot row from a row, from column `from` onwards. */
  method SubtractRow(row: seq<real>, pivotRow: seq<real>, from: nat, factor: real) returns (row': seq<real>)
    requires |pivotRow| == |row| && from <= |row|
    ensures |row'| == |row|
    ensures forall k :: 0 <= k < from ==> row'[k] == row[k]
    ensures forall k :: from <= k < |row| ==> row'[k] == row[k] - factor * pivotRow[k]
  {
    row' := row;
    for subColumn := from to |row|
      invariant |row'| == |row|
      invariant forall k :: 0 <= k < from ==> row'[k] == row[k]
      invariant forall k :: from <= k < subColumn ==> row'[k] == row[k] - factor * pivotRow[k]
      invariant forall k :: subColumn <= k < |row| ==> row'[k] == row[k]
    {
      row' := row'[subColumn := row'[subColumn] - factor * pivotRow[subColumn]];
    }
  }

  /** Clears `column` in every unfinished row by subtracting the right multiple of
      the (finished) active row, touching only the entries from `column` onwards.
      With skipZeros, rows whose entry is already 0 are left alone, as in the
      forward pass; back-substitution does not skip them. Provided the active row
      is 0 left of `column`, the system keeps its solutions. */
  method EliminateColumn(M: Matrix, isDone: seq<bool>, active: nat, column: nat, m: nat, skipZeros: bool)
    returns (M': Matrix)
    requires Shape(M, m) && |isDone| == m && active < m && isDone[active] && column < m
    requires forall k :: 0 <= k < column ==> M[active][k] == 0.0
    ensures Shape(M', m)
    ensures forall r :: 0 <= r < m && isDone[r] ==> M'[r] == M[r]
    ensures forall r, k :: 0 <= r < m && 0 <= k < column ==> M'[r][k] == M[r][k]
    ensures forall r, k :: 0 <= r < m && !isDone[r] && column <= k <= m ==>
      M'[r][k] == M[r][k] - M[r][column] * M[active][k]
    ensures SameSolutions(M, M', m)
  {
    M' := M;
    for row := 0 to m
      invariant Shape(M', m)
      invariant forall r :: row <= r < m ==> M'[r] == M[r]
      invariant forall r :: 0 <= r < m && isDone[r] ==> M'[r] == M[r]
      invariant forall r, k :: 0 <= r < m && 0 <= k < column ==> M'[r][k] == M[r][k]
      invariant forall r, k :: 0 <= r < row && !isDone[r] && column <= k <= m ==>
        M'[r][k] == M[r][k] - M[r][column] * M[active][k]
    {
      assert M'[row] == M[row] && M'[active] == M[active];
      if !isDone[row] && (!skipZeros || M'[row][column] != 0.0) {
        var firstTerm := M'[row][column];
        var newRow := SubtractRow(M'[row], M'[active], column, firstTerm);
        M' := M'[row := newRow];
      } else if !isDone[row] {
        forall k | column <= k <= m
          ensures M'[row][k] == M[row][k] - M[row][column] * M[active][k]
        {
          assert M[row][column] == 0.0;
        }
      }
    }
    var f := seq(m, r requires 0 <= r < m => if isDone[r] then 0.0 else M[r][column]);
    forall r, k | 0 <= r < m && 0 <= k <= m
      ensures M'[r][k] == M[r][k] - f[r] * M[active][k]
    {
      if isDone[r] {
        assert M'[r] == M[r];
      } else if k < column {
        assert M[active][k] == 0.0;
      }
    }
    SubtractRowsSameSolutions(M, M', m, active, f);
  }

  /** One column of the forward pass. When no unfinished row has a non-zero entry
      in the column, nothing changes and m is returned. Otherwise the topmost such
      row becomes the pivot: it is scaled so that its entry in the column is 1,
      marked finished, and the column is cleared in every unfinished row. */
  method PivotColumn(M: Matrix, isDone: seq<bool>, column: nat, m: nat)
    returns (M': Matrix, isDone': seq<bool>, activeRow: nat)
    requires Shape(M, m) && |isDone| == m && column < m
    requires forall r, k :: 0 <= r < m && 0 <= k < column && !isDone[r] ==> M[r][k] == 0.0
    ensures Shape(M', m) && |isDone'| == m && activeRow <= m
    ensures activeRow == m <==> forall r :: 0 <= r < m && !isDone[r] ==> M[r][column] == 0.0
    ensures activeRow == m ==> M' == M && isDone' == isDone
    ensures activeRow < m ==>
      && !isDone[activeRow] && M[activeRow][column] != 0.0
      && (forall r :: 0 <= r < activeRow ==> isDone[r] || M[r][column] == 0.0)
      && isDone' == isDone[activeRow := true]
      && M'[activeRow][column] == 1.0
      && (forall k :: 0 <= k < column ==> M'[activeRow][k] == 0.0)
      && (forall r :: 0 <= r < m && !isDone'[r] ==> M'[r][column] == 0.0)
      && (forall r, k :: 0 <= r < m && 0 <= k < column ==> M'[r][k] == M[r][k])
      && (forall r :: 0 <= r < m && isDone[r] ==> M'[r] == M[r])
    ensures SameSolutions(M, M', m)
  {
    activeRow := FindPivot(M, isDone, column, m);
    if activeRow == m {
      M', isDone' := M, isDone;
      return;
    }
    var firstTerm := M[activeRow][column];
    var normalized := NormalizeRow(M[activeRow], column, firstTerm);
    var M1 := M[activeRow := normalized];
    assert Shape(M1, m);
    ScaleRowSameSolutions(M, M1, m, activeRow, firstTerm);
    isDone' := isDone[activeRow := true];
    assert M1[activeRow][column] == 1.0;
    forall r, k | 0 <= r < m && 0 <= k < column
      ensures M1[r][k] == M[r][k]
    {
      if r == activeRow {
        assert M1[r] == normalized;
      } else {
        assert M1[r] == M[r];
      }
    }
    M' := EliminateColumn(M1, isDone', activeRow, column, m, true);
    forall r | 0 <= r < m && !isDone'[r]
      ensures M'[r][column] == 0.0
    {
      assert M'[r][column] == M1[r][column] - M1[r][column] * M1[activeRow][column];
    }
    forall r, k | 0 <= r < m && 0 <= k < column
      ensures M'[r][k] == M[r][k]
    {
      assert M'[r][k] == M1[r][k];
    }
  }

  /** The forward pass over all columns. */
  method ForwardEliminate(M: Matrix, m: nat) returns (result: Forward)
    requires Shape(M, m)
    ensures result.Pivoted? ==>
      && Shape(result.matrix, m)
      && IsPermutation(result.order, m)
      && PivotRows(result.matrix, result.order, m, m)
      && SameSolutions(M, result.matrix, m)
    ensures result.NoPivot? ==> Stalled(M, result.matrix, result.order, result.column, m)
  {
    var N := M;
    var isDone := seq(m, _ => false);
    var order: seq<nat> := [];
    CountDoneNone(m);
    for column := 0 to m
      invariant Progress(N, isDone, order, column, m)
      invariant SameSolutions(M, N, m)
    {
      var N', isDone', activeRow := PivotColumn(N, isDone, column, m);
      if activeRow == m {
        return NoPivot(column, N, order);
      }
      ProgressStep(N, N', isDone, isDone', order, activeRow, column, m);
      N, isDone, order := N', isDone', order + [activeRow];
    }
    CountDoneAll(isDone);
    return Pivoted(N, order);
  }

  /** Forward elimination of M stopped at `column`: N has M's solutions, rows
      order[0 .. column - 1] are the pivot rows of the columns before, and every
      other row is zero in the columns up to and including `column`. */
  ghost predicate Stalled(M: Matrix, N: Matrix, order: seq<nat>, column: nat, m: nat)
  {
    && Shape(M, m) && Shape(N, m) && column < m && |order| == column
    && (forall j :: 0 <= j < column ==> order[j] < m)
    && SameSolutions(M, N, m)
    && PivotRows(N, order, column, m)
    && (forall r, k :: 0 <= r < m && r !in order && 0 <= k <= column ==> N[r][k] == 0.0)
  }

  /** A stalled matrix has a non-zero vector that every row maps to 0: 1 in the
      stalled column, 0 after it, and the entries before it found by
      back-substitution through the pivot rows. */
  lemma KernelVector(N: Matrix, order: seq<nat>, column: nat, m: nat) returns (d: seq<real>)
    requires Shape(N, m) && column < m && |order| == column
    requires forall j :: 0 <= j < column ==> order[j] < m
    requires PivotRows(N, order, column, m)
    requires forall r, k :: 0 <= r < m && r !in order && 0 <= k <= column ==> N[r][k] == 0.0
    ensures |d| == m && d[column] == 1.0
    ensures forall r :: 0 <= r < m ==> Dot(N[r], d, m) == 0.0
  {
    d := seq(m, k requires 0 <= k < m => if k == column then 1.0 else 0.0);
    forall r | 0 <= r < m
      ensures Dot(N[r], d, m) == N[r][column]
    {
      DotBasis(N[r], d, column, m);
    }
    var j := column;
    while j > 0
      invariant 0 <= j <= column && |d| == m && d[column] == 1.0
      invariant forall r :: 0 <= r < m && r !in order ==> Dot(N[r], d, m) == 0.0
      invariant forall i :: j <= i < column ==> Dot(N[order[i]], d, m) == 0.0
    {
      j := j - 1;
      var v := d[j] - Dot(N[order[j]], d, m);
      forall r | 0 <= r < m
        ensures Dot(N[r], d[j := v], m) == Dot(N[r], d, m) + N[r][j] * (v - d[j])
      {
        DotUpdate(N[r], d, j, v, m);
      }
      d := d[j := v];
    }
  }

  /** A stalled system has no unique solution: next to every solution x lies the
      different solution x + d, with d from KernelVector. */
  lemma StalledNotUnique(M: Matrix, N: Matrix, order: seq<nat>, column: nat, m: nat)
    requires Stalled(M, N, order, column, m)
    ensures NoUniqueSolution(M, m)
  {
    var d := KernelVector(N, order, column, m);
    forall x | Solves(M, x, m)
      ensures exists y :: Solves(M, y, m) && y != x
    {
      var y := Plus(x, d);
      assert Solves(N, x, m);
      forall r | 0 <= r < m
        ensures SatisfiesRow(N[r], y, m)
      {
        DotPlus(N[r], x, d, m);
        assert SatisfiesRow(N[r], x, m);
      }
      assert Solves(N, y, m);
      assert y[column] != x[column];
    }
  }

  /** The state of forward elimination after the first `column` columns: order
      lists the pivot rows of those columns, exactly the rows marked done, each
      with 1 in its column and 0 to the left, and every row not yet done is zero
      in those columns. */
  ghost predicate Progress(N: Matrix, isDone: seq<bool>, order: seq<nat>, column: nat, m: nat)
  {
    && Shape(N, m) && |isDone| == m && |order| == column <= m
    && (forall j :: 0 <= j < column ==> order[j] < m)
    && (forall i, j :: 0 <= i < j < column ==> order[i] != order[j])
    && (forall r :: 0 <= r < m ==> (isDone[r] <==> r in order))
    && CountDone(isDone) == column
    && PivotRows(N, order, column, m)
    && (forall r, k :: 0 <= r < m && 0 <= k < column && !isDone[r] ==> N[r][k] == 0.0)
  }

  /** Pivoting one more column on a new row extends the progress by that column. */
  lemma ProgressStep(N: Matrix, N': Matrix, isDone: seq<bool>, isDone': seq<bool>, order: seq<nat>,
                     activeRow: nat, column: nat, m: nat)
    requires Progress(N, isDone, order, column, m) && column < m
    requires Shape(N', m) && activeRow < m && !isDone[activeRow]
    requires isDone' == isDone[activeRow := true]
    requires N'[activeRow][column] == 1.0
    requires forall k :: 0 <= k < column ==> N'[activeRow][k] == 0.0
    requires forall r :: 0 <= r < m && !isDone'[r] ==> N'[r][column] == 0.0
    requires forall r, k :: 0 <= r < m && 0 <= k < column ==> N'[r][k] == N[r][k]
    requires forall r :: 0 <= r < m && isDone[r] ==> N'[r] == N[r]
    ensures Progress(N', isDone', order + [activeRow], column + 1, m)
  {
    var order' := order + [activeRow];
    CountDoneMark(isDone, activeRow);
    assert forall j :: 0 <= j < column ==> order'[j] == order[j] && isDone[order[j]];
    forall r | 0 <= r < m
      ensures isDone'[r] <==> r in order'
    {
      if r == activeRow {
        assert order'[column] == r;
      } else {
        assert r in order' <==> r in order;
      }
    }
    forall j | 0 <= j < column + 1
      ensures N'[order'[j]][j] == 1.0 && forall k :: 0 <= k < j ==> N'[order'[j]][k] == 0.0
    {
      if j < column {
        assert N'[order[j]] == N[order[j]];
      }
    }
    forall r, k | 0 <= r < m && 0 <= k < column + 1 && !isDone'[r]
      ensures N'[r][k] == 0.0
    {
      if k < column {
        assert N'[r][k] == N[r][k];
      }
    }
  }


  /** Columns after `column` are cleared: each holds a non-zero entry only in its own pivot row. */
  predicate ClearedAfter(M: Matrix, order: seq<nat>, column: int, m: nat)
    requires Shape(M, m) && |order| == m
  {
    forall k, r :: 0 <= k < m && column < k && 0 <= r < m && r != order[k] ==> M[r][k] == 0.0
  }

  /** One column of back-substitution keeps the pivot rows and clears one more column. */
  lemma BackColumnStep(M: Matrix, M': Matrix, isDone: seq<bool>, order: seq<nat>, pos: seq<nat>, column: nat, m: nat)
    requires Shape(M, m) && Shape(M', m) && IsPermutation(order, m) && column < m
    requires |pos| == m && forall r :: 0 <= r < m ==> pos[r] < m && order[pos[r]] == r
    requires forall j :: 0 <= j < m ==> pos[order[j]] == j
    requires |isDone| == m && forall r :: 0 <= r < m ==> isDone[r] == (pos[r] >= column)
    requires PivotRows(M, order, m, m) && ClearedAfter(M, order, column, m)
    requires forall r :: 0 <= r < m && isDone[r] ==> M'[r] == M[r]
    requires forall r, k :: 0 <= r < m && 0 <= k < column ==> M'[r][k] == M[r][k]
    requires forall r, k :: 0 <= r < m && !isDone[r] && column <= k <= m ==>
      M'[r][k] == M[r][k] - M[r][column] * M[order[column]][k]
    ensures PivotRows(M', order, m, m) && ClearedAfter(M', order, column - 1, m)
  {
    forall j | 0 <= j < m
      ensures M'[order[j]][j] == 1.0 && forall k :: 0 <= k < j ==> M'[order[j]][k] == 0.0
    {
      if j >= column {
        assert isDone[order[j]];
      } else {
        assert forall k :: 0 <= k <= j ==> M'[order[j]][k] == M[order[j]][k];
      }
    }
    forall k, r | column - 1 < k < m && 0 <= r < m && r != order[k]
      ensures M'[r][k] == 0.0
    {
      var a := order[column];
      if isDone[r] {
        assert M'[r] == M[r];
        if k == column {
          assert order[pos[r]] == r && pos[r] > column;
        }
      } else if k == column {
        assert M[a][column] == 1.0;
      } else {
        assert a != order[k];
      }
    }
  }

  /** A matrix whose pivot rows are unit rows has exactly one solution: the
      right-hand sides of the pivot rows, taken in column order. */
  lemma UnitRowsSolution(R: Matrix, order: seq<nat>, coefficients: seq<real>, m: nat)
    requires Shape(R, m) && IsPermutation(order, m) && |coefficients| == m
    requires forall j :: 0 <= j < m ==> IsUnitRow(R[order[j]], j, m) && coefficients[j] == R[order[j]][m]
    ensures forall x :: Solves(R, x, m) <==> x == coefficients
  {
    var pos := InversePermutation(order, m);
    forall x | |x| == m
      ensures Solves(R, x, m) <==> x == coefficients
    {
      forall r | 0 <= r < m
        ensures SatisfiesRow(R[r], x, m) <==> x[pos[r]] == coefficients[pos[r]]
      {
        UnitRowFixes(R[r], x, pos[r], m);
      }
      if x != coefficients {
        var j :| 0 <= j < m && x[j] != coefficients[j];
        assert !SatisfiesRow(R[order[j]], x, m);
      }
    }
  }

  /** Back-substitution over a forward-reduced matrix. The ghost result R is the
      final matrix: every pivot row has become a unit row. */
  method BackSubstitute(N: Matrix, order: seq<nat>, m: nat) returns (coefficients: seq<real>, ghost R: Matrix)
    requires Shape(N, m) && IsPermutation(order, m) && PivotRows(N, order, m, m)
    ensures |coefficients| == m && Shape(R, m)
    ensures forall j :: 0 <= j < m ==> IsUnitRow(R[order[j]], j, m) && coefficients[j] == R[order[j]][m]
    ensures SameSolutions(N, R, m)
    ensures Solves(N, coefficients, m)
    ensures forall x :: Solves(N, x, m) ==> x == coefficients
  {
    ghost var pos := InversePermutation(order, m);
    var M := N;
    var isDone := seq(m, _ => false);
    coefficients := seq(m, _ => 0.0);
    var column: int := m - 1;
    while column >= 0
      invariant -1 <= column < m
      invariant Shape(M, m) && |isDone| == m && |coefficients| == m
      invariant forall r :: 0 <= r < m ==> isDone[r] == (pos[r] > column)
      invariant PivotRows(M, order, m, m) && ClearedAfter(M, order, column, m)
      invariant forall k :: column < k < m ==> coefficients[k] == M[order[k]][m]
      invariant SameSolutions(N, M, m)
      decreases column
    {
      var activeRow := order[column];
      isDone := isDone[activeRow := true];
      var M' := EliminateColumn(M, isDone, activeRow, column, m, false);
      BackColumnStep(M, M', isDone, order, pos, column, m);
      M := M';
      coefficients := coefficients[column := M[activeRow][m]];
      column := column - 1;
    }
    R := M;
    forall j, k | 0 <= j < m && 0 <= k < m
      ensures R[order[j]][k] == (if k == j then 1.0 else 0.0)
    {
      if k > j {
        assert order[j] != order[k];
      } else {
        assert PivotRows(R, order, m, m);
      }
    }
    UnitRowsSolution(R, order, coefficients, m);
  }

  /** Solves an m x (m + 1) augmented system: the returned coefficients are its one
      and only solution, indexed by column (the exponent). It fails, naming the
      first column without a pivot, exactly when there is no such solution. */
  method Solve(M: Matrix, m: nat) returns (s: Solution)
    requires Shape(M, m)
    ensures s.Solved? ==> |s.coefficients| == m && Solves(M, s.coefficients, m)
    ensures s.Solved? ==> forall x :: Solves(M, x, m) ==> x == s.coefficients
    ensures s.Singular? ==> s.column < m && NoUniqueSolution(M, m)
  {
    var forward := ForwardEliminate(M, m);
    match forward
    case NoPivot(column, N, order) =>
      StalledNotUnique(M, N, order, column, m);
      return Singular(column);
    case Pivoted(N, order) =>
      var coefficients;
      ghost var R;
      coefficients, R := BackSubstitute(N, order, m);
      return Solved(coefficients);
  }
}

=== FILE: goodness_of_fit.dfy ===
/**
  How well a fitted polynomial matches the data: the coefficient of determination
  R^2 = 1 - SSE / SST, where SSE is the sum of squared residuals of the fit and SST
  the sum of squared deviations of y from its mean, and the adjusted R^2 that
  corrects it for the number of predictors. DrQue\PolynomialRegression computes
  both with floating-point numbers; here they are exact reals.
 */
module GoodnessOfFit {
  import opened Results
  import opened Polynomial

  function Square(a: real): real
  {
    a * a
  }

  lemma SquareNonNegative(a: real)
    ensures Square(a) >= 0.0
  {
  }

  lemma PositiveProduct(a: real, b: real)
    requires a > 0.0 && b > 0.0
    ensures a * b > 0.0
  {
  }

  /** The identity, used to present a square to the solver as a product of two
      factors. */
  function Same(a: real): real
  {
    a
  }

  /** A square is positive unless its base is zero. */
  lemma SquareZeroOrPositive(a: real)
    ensures a == 0.0 || Square(a) > 0.0
  {
    if a != 0.0 {
      var b := Same(a);
      if a > 0.0 {
        PositiveProduct(a, b);
      } else {
        PositiveProduct(-a, -b);
        assert a * b == (-a) * (-b);
      }
      assert Square(a) == a * b;
    }
  }

  /** The sum of the squares of the entries of v, which is never negative. */
  function SumOfSquares(v: seq<real>): (s: real)
    ensures s >= 0.0
  {
    if |v| == 0 then 0.0
    else
      SquareNonNegative(v[|v| - 1]);
      SumOfSquares(v[..|v| - 1]) + Square(v[|v| - 1])
  }

  /** A sum of squares vanishes exactly when every entry does. */
  lemma {:induction false} SumOfSquaresZero(v: seq<real>)
    ensures SumOfSquares(v) == 0.0 <==> forall i :: 0 <= i < |v| ==> v[i] == 0.0
    decreases |v|
  {
    if |v| > 0 {
      var n := |v| - 1;
      SumOfSquaresZero(v[..n]);
      SquareNonNegative(v[n]);
      SquareZeroOrPositive(v[n]);
      if SumOfSquares(v) == 0.0 {
        assert SumOfSquares(v[..n]) == 0.0 && Square(v[n]) == 0.0;
        forall i | 0 <= i < |v|
          ensures v[i] == 0.0
        {
          if i < n {
            assert v[..n][i] == v[i];
          }
        }
      }
      if forall i :: 0 <= i < |v| ==> v[i] == 0.0 {
        assert forall i :: 0 <= i < n ==> v[..n][i] == 0.0;
        assert v[n] == 0.0;
      }
    }
  }

  lemma MulMonotone(a: real, b: real, c: real)
    requires a <= b && c >= 0.0
    ensures a * c <= b * c
  {
    assert b * c - a * c == (b - a) * c;
  }

  /** Multiplying both sides by the reciprocal of a positive factor. */
  lemma MulCancelLeq(a: real, b: real, c: real)
    requires c > 0.0 && a * c <= b * c
    ensures a <= b
  {
    MulMonotone(a * c, b * c, 1.0 / c);
    assert c * (1.0 / c) == 1.0;
    assert (a * c) * (1.0 / c) == a * (c * (1.0 / c));
    assert (b * c) * (1.0 / c) == b * (c * (1.0 / c));
  }

  /** Cancelling a non-zero factor. */
  lemma MulCancel(a: real, b: real, c: real)
    requires c != 0.0 && a * c == b * c
    ensures a == b
  {
    assert c * (1.0 / c) == 1.0;
    assert (a * c) * (1.0 / c) == a * (c * (1.0 / c));
    assert (b * c) * (1.0 / c) == b * (c * (1.0 / c));
  }

  lemma ScaledQuotient(s: real, n: real, v: real)
    requires n != 0.0 && s == n * v
    ensures s / n == v
  {
  }

  /** The sum of the y values. */
  function SumY(data: seq<Sample>): real
  {
    if |data| == 0 then 0.0 else SumY(data[..|data| - 1]) + data[|data| - 1].y
  }

  /** The average y value. */
  function Mean(data: seq<Sample>): real
    requires |data| > 0
  {
    SumY(data) / (|data| as real)
  }

  /** y minus the fitted value, for each sample. */
  function Residuals(data: seq<Sample>, coefficients: seq<real>): (e: seq<real>)
    ensures |e| == |data|
  {
    seq(|data|, i requires 0 <= i < |data| => data[i].y - Poly(coefficients, data[i].x))
  }

  /** y minus the given mean, for each sample. */
  function Deviations(data: seq<Sample>, mean: real): (d: seq<real>)
    ensures |d| == |data|
  {
    seq(|data|, i requires 0 <= i < |data| => data[i].y - mean)
  }

  /** Every sample has the same y value. */
  predicate ConstantY(data: seq<Sample>)
  {
    forall i, j :: 0 <= i < |data| && 0 <= j < |data| ==> data[i].y == data[j].y
  }

  lemma {:induction false} SumYConstant(data: seq<Sample>, v: real)
    requires forall i :: 0 <= i < |data| ==> data[i].y == v
    ensures SumY(data) == (|data| as real) * v
    decreases |data|
  {
    if |data| > 0 {
      var n := |data| - 1;
      assert forall i :: 0 <= i < n ==> data[..n][i].y == v;
      SumYConstant(data[..n], v);
    }
  }

  /** The deviations from the mean all vanish exactly when y is constant. */
  lemma ConstantYIsZeroVariance(data: seq<Sample>)
    requires |data| > 0
    ensures SumOfSquares(Deviations(data, Mean(data))) == 0.0 <==> ConstantY(data)
  {
    var d := Deviations(data, Mean(data));
    SumOfSquaresZero(d);
    if ConstantY(data) {
      var v := data[0].y;
      SumYConstant(data, v);
      ScaledQuotient(SumY(data), |data| as real, v);
      assert Mean(data) == v;
      forall i | 0 <= i < |data|
        ensures d[i] == 0.0
      {
        assert data[i].y == v;
      }
    }
    if forall i :: 0 <= i < |d| ==> d[i] == 0.0 {
      forall i, j | 0 <= i < |data| && 0 <= j < |data|
        ensures data[i].y == data[j].y
      {
        assert d[i] == 0.0 && d[j] == 0.0;
      }
    }
  }

  /** The polynomial passes through every sample. */
  predicate PerfectFit(data: seq<Sample>, coefficients: seq<real>)
  {
    forall i :: 0 <= i < |data| ==> data[i].y == Poly(coefficients, data[i].x)
  }

  /** R^2 by definition: 1 - SSE / SST, where SSE is the sum of squared residuals
      of the fit and SST the sum of squared deviations of y from its mean. Without
      data there is no mean, and with constant y the quotient has a zero
      denominator; both are failures. */
  function RSquaredOf(data: seq<Sample>, coefficients: seq<real>): Result<real>
  {
    if |data| == 0 then Failure(EmptyData)
    else
      var sst := SumOfSquares(Deviations(data, Mean(data)));
      if sst == 0.0 then Failure(ZeroVariance)
      else Success(1.0 - SumOfSquares(Residuals(data, coefficients)) / sst)
  }

  /** R^2 is undefined exactly when there is no data or y is constant. */
  lemma RSquaredUndefined(data: seq<Sample>, coefficients: seq<real>)
    ensures RSquaredOf(data, coefficients) == Failure(EmptyData) <==> |data| == 0
    ensures RSquaredOf(data, coefficients) == Failure(ZeroVariance) <==> |data| > 0 && ConstantY(data)
  {
    if |data| > 0 {
      ConstantYIsZeroVariance(data);
    }
  }

  /** R^2 is at most 1, and it is exactly 1 when and only when the polynomial
      passes through every sample. */
  lemma RSquaredAtMostOne(data: seq<Sample>, coefficients: seq<real>)
    ensures RSquaredOf(data, coefficients).Success? ==> RSquaredOf(data, coefficients).value <= 1.0
    ensures RSquaredOf(data, coefficients).Success? ==>
      (RSquaredOf(data, coefficients).value == 1.0 <==> PerfectFit(data, coefficients))
  {
    if RSquaredOf(data, coefficients).Success? {
      var e := Residuals(data, coefficients);
      SumOfSquaresZero(e);
      assert forall i :: 0 <= i < |data| ==> (e[i] == 0.0 <==> data[i].y == Poly(coefficients, data[i].x));
      QuotientFacts(SumOfSquares(e), SumOfSquares(Deviations(data, Mean(data))));
    }
  }

  /** RSquared: the average of y, then in one pass the squared residuals of the
      fit and the squared deviations from the average, then 1 - SSE / SST. The
      cases where DrQue\PolynomialRegression::RSquared divides by zero are
      reported as failures. */
  method RSquared(data: seq<Sample> := [], coefficients: seq<real> := []) returns (r: Result<real>)
    ensures r == RSquaredOf(data, coefficients)
  {
    if |data| == 0 {
      r := Failure(EmptyData);
    } else {
      var average := Average(data);
      var errorSum, meanSum := ErrorAndMeanSums(data, coefficients, average);
      if meanSum == 0.0 {
        r := Failure(ZeroVariance);
      } else {
        r := Success(1.0 - errorSum / meanSum);
      }
    }
  }

  /** The first pass of RSquared: the sum of y divided by the number of samples. */
  method Average(data: seq<Sample>) returns (average: real)
    requires |data| > 0
    ensures average == Mean(data)
  {
    average := 0.0;
    for i := 0 to |data|
      invariant average == SumY(data[..i])
    {
      assert data[..i + 1][..i] == data[..i];
      average := average + data[i].y;
    }
    assert data[..|data|] == data;
    average := average / (|data| as real);
  }

  /** The second pass of RSquared: the squared residuals of the fit, each fitted
      value computed by interpolate, and the squared deviations from the average,
      summed in one loop. */
  method ErrorAndMeanSums(data: seq<Sample>, coefficients: seq<real>, average: real) returns (errorSum: real, meanSum: real)
    ensures errorSum == SumOfSquares(Residuals(data, coefficients))
    ensures meanSum == SumOfSquares(Deviations(data, average))
  {
    ghost var e, d := Residuals(data, coefficients), Deviations(data, average);
    meanSum := 0.0;
    errorSum := 0.0;
    for i := 0 to |data|
      invariant errorSum == SumOfSquares(e[..i])
      invariant meanSum == SumOfSquares(d[..i])
    {
      assert e[..i + 1][..i] == e[..i];
      assert d[..i + 1][..i] == d[..i];
      var fitted := Interpolate(coefficients, data[i].x);
      var error := data[i].y - fitted;
      assert error == e[i];
      errorSum := errorSum + Square(error);
      error := data[i].y - average;
      assert error == d[i];
      meanSum := meanSum + Square(error);
    }
    assert e[..|data|] == e && d[..|data|] == d;
  }

  /** A non-negative numerator over a positive denominator gives a non-negative
      quotient that is zero only for a zero numerator. */
  lemma QuotientFacts(a: real, b: real)
    requires a >= 0.0 && b > 0.0
    ensures a / b >= 0.0
    ensures a / b == 0.0 <==> a == 0.0
  {
  }

  /** RAdjusted: 1 - (1 - r2)(N - 1) / (N - p - 1) for N samples and p predictors,
      and exactly 1 when N - p - 1 is zero. A perfect fit stays perfect, no
      predictors leave R^2 unchanged, and with p >= 0, more than p + 1 samples
      and r2 <= 1 the adjustment never raises R^2. */
  function RAdjusted(r2: real, predictors: int, sampleSize: int): (r: real)
    ensures sampleSize - predictors - 1 == 0 ==> r == 1.0
    ensures sampleSize - predictors - 1 != 0 ==>
      r * ((sampleSize - predictors - 1) as real) == ((sampleSize - predictors - 1) as real) - (1.0 - r2) * ((sampleSize - 1) as real)
    ensures r2 == 1.0 ==> r == 1.0
    ensures predictors == 0 && sampleSize != 1 ==> r == r2
    ensures predictors >= 0 && sampleSize - predictors - 1 > 0 && r2 <= 1.0 ==> r <= r2
  {
    var d := sampleSize - predictors - 1;
    if d != 0 then
      var q := ((1.0 - r2) * ((sampleSize - 1) as real)) / (d as real);
      AdjustedFacts(r2, predictors, sampleSize, q);
      1.0 - q
    else
      1.0
  }

  lemma AdjustedFacts(r2: real, p: int, n: int, q: real)
    requires n - p - 1 != 0
    requires q == ((1.0 - r2) * ((n - 1) as real)) / ((n - p - 1) as real)
    ensures (1.0 - q) * ((n - p - 1) as real) == ((n - p - 1) as real) - (1.0 - r2) * ((n - 1) as real)
    ensures r2 == 1.0 ==> q == 0.0
    ensures p == 0 ==> q == 1.0 - r2
    ensures p >= 0 && n - p - 1 > 0 && r2 <= 1.0 ==> q >= 1.0 - r2
  {
    var d, k := (n - p - 1) as real, (n - 1) as real;
    assert q * d == (1.0 - r2) * k;
    assert (1.0 - q) * d == d - q * d;
    if p == 0 {
      assert k == d;
      MulCancel(q, 1.0 - r2, d);
    }
    if p >= 0 && n - p - 1 > 0 && r2 <= 1.0 {
      ScaledAtLeast(q, 1.0 - r2, d, k);
    }
  }

  /** If q * d = w * k with 0 < d <= k and w >= 0, then q >= w. */
  lemma ScaledAtLeast(q: real, w: real, d: real, k: real)
    requires q * d == w * k && 0.0 < d <= k && w >= 0.0
    ensures q >= w
  {
    MulMonotone(d, k, w);
    assert w * d <= q * d;
    MulCancelLeq(w, q, d);
  }

  /** If a * d = d - u * k and b * d = d - v * k with v <= u, k >= 0 and d > 0,
      then a <= b. */
  lemma ScaledOrder(a: real, b: real, d: real, k: real, u: real, v: real)
    requires a * d == d - u * k && b * d == d - v * k && v <= u && k >= 0.0 && d > 0.0
    ensures a <= b
  {
    MulMonotone(v, u, k);
    MulCancelLeq(a, b, d);
  }

  /** For a fixed model size with more samples than predictors plus one, a better
      R^2 gives a better adjusted R^2. */
  lemma {:induction false} RAdjustedMonotone(r2: real, r2': real, predictors: int, sampleSize: int)
    requires sampleSize - predictors - 1 > 0 && sampleSize >= 1 && r2 <= r2'
    ensures RAdjusted(r2, predictors, sampleSize) <= RAdjusted(r2', predictors, sampleSize)
  {
    var d, k := (sampleSize - predictors - 1) as real, (sampleSize - 1) as real;
    var a, b := RAdjusted(r2, predictors, sampleSize), RAdjusted(r2', predictors, sampleSize);
    assert a * d == d - (1.0 - r2) * k;
    assert b * d == d - (1.0 - r2') * k;
    ScaledOrder(a, b, d, k, 1.0 - r2, 1.0 - r2');
  }
}

=== FILE: linear_system.dfy ===
/**
  Augmented linear systems: an m-row matrix whose rows hold m coefficients followed
  by the right-hand side, what it means for a vector to solve one, and the two
  elementary row operations of Gauss-Jordan elimination together with the fact that
  neither changes the set of solutions.
 */
module LinearSystem {

  /** Rows of an augmented matrix. */
  type Matrix = seq<seq<real>>

  /** M has m rows of m + 1 entries each (the last entry is the right-hand side). */
  predicate Shape(M: Matrix, m: nat)
  {
    |M| == m && forall r :: 0 <= r < m ==> |M[r]| == m + 1
  }

  /** The sum of row[j] * x[j] over j < k. */
  function Dot(row: seq<real>, x: seq<real>, k: nat): real
    requires k <= |row| && k <= |x|
  {
    if k == 0 then 0.0 else Dot(row, x, k - 1) + row[k - 1] * x[k - 1]
  }

  /** x satisfies the equation held by one augmented row. */
  predicate SatisfiesRow(row: seq<real>, x: seq<real>, m: nat)
    requires |row| == m + 1 && |x| == m
  {
    Dot(row, x, m) == row[m]
  }

  /** x satisfies every equation of M. */
  predicate Solves(M: Matrix, x: seq<real>, m: nat)
    requires Shape(M, m)
  {
    |x| == m && forall r :: 0 <= r < m ==> SatisfiesRow(M[r], x, m)
  }

  /** A and B have exactly the same solutions. */
  ghost predicate SameSolutions(A: Matrix, B: Matrix, m: nat)
    requires Shape(A, m) && Shape(B, m)
  {
    forall x :: Solves(A, x, m) <==> Solves(B, x, m)
  }

  /** A row that is the j-th unit vector in its first m entries. */
  predicate IsUnitRow(row: seq<real>, j: nat, m: nat)
    requires |row| == m + 1
  {
    forall k :: 0 <= k < m ==> row[k] == (if k == j then 1.0 else 0.0)
  }

  lemma {:induction false} DotUnit(row: seq<real>, x: seq<real>, j: nat, k: nat)
    requires k <= |row| && k <= |x| && j < |x|
    requires forall i :: 0 <= i < k ==> row[i] == (if i == j then 1.0 else 0.0)
    ensures Dot(row, x, k) == (if j < k then x[j] else 0.0)
  {
    if k > 0 {
      DotUnit(row, x, j, k - 1);
    }
  }

  /** The entrywise sum of two vectors. */
  function Plus(a: seq<real>, b: seq<real>): (r: seq<real>)
    requires |a| == |b|
    ensures |r| == |a|
  {
    seq(|a|, i requires 0 <= i < |a| => a[i] + b[i])
  }

  /** Every entry of v multiplied by c. */
  function Scale(c: real, v: seq<real>): (r: seq<real>)
    ensures |r| == |v|
  {
    seq(|v|, i requires 0 <= i < |v| => c * v[i])
  }

  /** The system has no solution, or more than one. */
  ghost predicate NoUniqueSolution(M: Matrix, m: nat)
    requires Shape(M, m)
  {
    forall x :: Solves(M, x, m) ==> exists y :: Solves(M, y, m) && y != x
  }

  /** Changing one component of x changes the product by row[j] times the change. */
  lemma {:induction false} DotUpdate(row: seq<real>, x: seq<real>, j: nat, v: real, k: nat)
    requires k <= |row| && k <= |x| && j < |x|
    ensures Dot(row, x[j := v], k) == Dot(row, x, k) + (if j < k then row[j] * (v - x[j]) else 0.0)
  {
    if k > 0 {
      DotUpdate(row, x, j, v, k - 1);
    }
  }

  /** The product with the j-th unit vector picks out row[j]. */
  lemma {:induction false} DotBasis(row: seq<real>, x: seq<real>, j: nat, k: nat)
    requires k <= |row| && k <= |x| && j < |x|
    requires forall i :: 0 <= i < |x| ==> x[i] == (if i == j then 1.0 else 0.0)
    ensures Dot(row, x, k) == (if j < k then row[j] else 0.0)
  {
    if k > 0 {
      DotBasis(row, x, j, k - 1);
    }
  }

  /** The product is additive in the vector. */
  lemma {:induction false} DotPlus(row: seq<real>, x: seq<real>, d: seq<real>, k: nat)
    requires k <= |row| && k <= |x| && |x| == |d|
    ensures Dot(row, Plus(x, d), k) == Dot(row, x, k) + Dot(row, d, k)
  {
    if k > 0 {
      DotPlus(row, x, d, k - 1);
    }
  }

  /** The product is additive in the row. */
  lemma {:induction false} DotRowPlus(a: seq<real>, b: seq<real>, x: seq<real>, k: nat)
    requires |a| == |b| && k <= |a| && k <= |x|
    ensures Dot(Plus(a, b), x, k) == Dot(a, x, k) + Dot(b, x, k)
  {
    if k > 0 {
      DotRowPlus(a, b, x, k - 1);
    }
  }

  /** A row that is zero in its first k entries gives the product 0. */
  lemma {:induction false} DotZero(row: seq<real>, x: seq<real>, k: nat)
    requires k <= |row| && k <= |x|
    requires forall j :: 0 <= j < k ==> row[j] == 0.0
    ensures Dot(row, x, k) == 0.0
  {
    if k > 0 {
      DotZero(row, x, k - 1);
    }
  }

  /** Scaling every entry of the row scales the product. */
  lemma DotScaledRow(row: seq<real>, a: real, x: seq<real>, k: nat)
    requires k <= |row| && k <= |x|
    ensures Dot(Scale(a, row), x, k) == Dot(row, x, k) * a
  {
    DotScaled(row, Scale(a, row), x, k, a);
  }

  /** Two products are equal when, term by term, either the entries agree or
      the first row and the second vector are both zero there. */
  lemma {:induction false} DotMasked(a: seq<real>, x: seq<real>, b: seq<real>, y: seq<real>, k: nat)
    requires k <= |a| && k <= |x| && k <= |b| && k <= |y|
    requires forall j :: 0 <= j < k ==> (a[j] == 0.0 && y[j] == 0.0) || (a[j] == b[j] && x[j] == y[j])
    ensures Dot(a, x, k) == Dot(b, y, k)
  {
    if k > 0 {
      DotMasked(a, x, b, y, k - 1);
    }
  }

  /** A unit row fixes one component of every solution. */
  lemma UnitRowFixes(row: seq<real>, x: seq<real>, j: nat, m: nat)
    requires |row| == m + 1 && |x| == m && j < m
    requires IsUnitRow(row, j, m)
    ensures SatisfiesRow(row, x, m) <==> x[j] == row[m]
  {
    DotUnit(row, x, j, m);
  }

  lemma {:induction false} DotScaled(row': seq<real>, row: seq<real>, x: seq<real>, k: nat, p: real)
    requires k <= |row| && k <= |row'| && k <= |x|
    requires forall i :: 0 <= i < k ==> row'[i] * p == row[i]
    ensures Dot(row', x, k) * p == Dot(row, x, k)
  {
    if k > 0 {
      DotScaled(row', row, x, k - 1, p);
      calc {
        Dot(row', x, k) * p;
        (Dot(row', x, k - 1) + row'[k - 1] * x[k - 1]) * p;
        Dot(row', x, k - 1) * p + (row'[k - 1] * p) * x[k - 1];
        Dot(row, x, k);
      }
    }
  }

  lemma {:induction false} DotCombined(row': seq<real>, row: seq<real>, piv: seq<real>, f: real, x: seq<real>, k: nat)
    requires k <= |row| && k <= |row'| && k <= |piv| && k <= |x|
    requires forall i :: 0 <= i < k ==> row'[i] == row[i] - f * piv[i]
    ensures Dot(row', x, k) == Dot(row, x, k) - f * Dot(piv, x, k)
  {
    if k > 0 {
      DotCombined(row', row, piv, f, x, k - 1);
      calc {
        Dot(row', x, k);
        Dot(row', x, k - 1) + row'[k - 1] * x[k - 1];
        Dot(row, x, k - 1) - f * Dot(piv, x, k - 1) + (row[k - 1] - f * piv[k - 1]) * x[k - 1];
        Dot(row, x, k - 1) + row[k - 1] * x[k - 1] - f * (Dot(piv, x, k - 1) + piv[k - 1] * x[k - 1]);
      }
    }
  }

  /** Dividing one row by a non-zero number keeps the solutions. */
  lemma ScaleRowSameSolutions(M: Matrix, M': Matrix, m: nat, p: nat, c: real)
    requires Shape(M, m) && Shape(M', m) && p < m && c != 0.0
    requires forall r :: 0 <= r < m && r != p ==> M'[r] == M[r]
    requires forall k :: 0 <= k <= m ==> M'[p][k] * c == M[p][k]
    ensures SameSolutions(M, M', m)
  {
    forall x | |x| == m
      ensures SatisfiesRow(M[p], x, m) <==> SatisfiesRow(M'[p], x, m)
    {
      DotScaled(M'[p], M[p], x, m, c);
      assert Dot(M'[p], x, m) * c == Dot(M[p], x, m);
      assert M'[p][m] * c == M[p][m];
      if Dot(M'[p], x, m) == M'[p][m] {
        assert Dot(M[p], x, m) == M[p][m];
      }
      if Dot(M[p], x, m) == M[p][m] {
        assert (Dot(M'[p], x, m) - M'[p][m]) * c == 0.0;
      }
    }
    forall x
      ensures Solves(M, x, m) <==> Solves(M', x, m)
    {
      if |x| == m {
        assert forall r :: 0 <= r < m && r != p ==> (SatisfiesRow(M[r], x, m) <==> SatisfiesRow(M'[r], x, m));
      }
    }
  }

  /** Subtracting from each row r the multiple f[r] of a pivot row p (with f[p] = 0)
      keeps the solutions. */
  lemma SubtractRowsSameSolutions(M: Matrix, M': Matrix, m: nat, p: nat, f: seq<real>)
    requires Shape(M, m) && Shape(M', m) && p < m && |f| == m && f[p] == 0.0
    requires forall r, k :: 0 <= r < m && 0 <= k <= m ==> M'[r][k] == M[r][k] - f[r] * M[p][k]
    ensures SameSolutions(M, M', m)
  {
    assert M'[p] == M[p];
    forall x | |x| == m
      ensures Solves(M, x, m) <==> Solves(M', x, m)
    {
      forall r | 0 <= r < m
        ensures Dot(M'[r], x, m) == Dot(M[r], x, m) - f[r] * Dot(M[p], x, m)
      {
        DotCombined(M'[r], M[r], M[p], f[r], x, m);
      }
      if Solves(M, x, m) {
        forall r | 0 <= r < m
          ensures SatisfiesRow(M'[r], x, m)
        {
          assert SatisfiesRow(M[r], x, m) && SatisfiesRow(M[p], x, m);
        }
      }
      if Solves(M', x, m) {
        forall r | 0 <= r < m
          ensures SatisfiesRow(M[r], x, m)
        {
          assert SatisfiesRow(M'[r], x, m) && SatisfiesRow(M'[p], x, m);
        }
      }
    }
  }
}

=== FILE: polynomial.dfy ===
/**
  Powers and polynomial evaluation over exact reals. The regression code works on
  arbitrary-precision decimals; here every value is a mathematical real, so the
  decimal scale (and its truncation) disappears.
 */
module Polynomial {

  /** One data point (x, y). */
  datatype Sample = Sample(x: real, y: real)

  /** x raised to the natural power k, with x^0 = 1 (also for x = 0). */
  function Pow(x: real, k: nat): real
  {
    if k == 0 then 1.0 else Pow(x, k - 1) * x
  }

  /** x^(i + j) = x^i * x^j. */
  lemma {:induction false} PowAdd(x: real, i: nat, j: nat)
    ensures Pow(x, i + j) == Pow(x, i) * Pow(x, j)
    decreases j
  {
    if j > 0 {
      PowAdd(x, i, j - 1);
      assert Pow(x, i) * Pow(x, j - 1) * x == Pow(x, i) * (Pow(x, j - 1) * x);
    }
  }

  /** The value of the polynomial with coefficients c (constant term first) at x:
      the sum of c[k] * x^k over k < |c|. */
  function Poly(c: seq<real>, x: real): real
  {
    if |c| == 0 then 0.0 else Poly(c[..|c| - 1], x) + c[|c| - 1] * Pow(x, |c| - 1)
  }

  /** The value of the first k coefficients is that of the first k - 1 plus the
      term of exponent k - 1. */
  lemma {:induction false} PolyPrefixStep(c: seq<real>, x: real, k: nat)
    requires 0 < k <= |c|
    ensures Poly(c[..k], x) == Poly(c[..k - 1], x) + c[k - 1] * Pow(x, k - 1)
  {
    assert c[..k][..k - 1] == c[..k - 1];
  }

  /** Setting coefficient t to zero lowers the value by v[t] * x^t. */
  lemma {:induction false} PolyClear(v: seq<real>, t: nat, x: real)
    requires t < |v|
    ensures Poly(v[t := 0.0], x) == Poly(v, x) - v[t] * Pow(x, t)
    decreases |v|
  {
    var n := |v| - 1;
    if t == n {
      assert v[t := 0.0][..n] == v[..n];
      assert Poly(v[t := 0.0], x) == Poly(v[..n], x);
    } else {
      assert v[t := 0.0][..n] == v[..n][t := 0.0];
      PolyClear(v[..n], t, x);
      assert v[..n][t] == v[t];
      assert Poly(v[t := 0.0], x) == Poly(v[..n][t := 0.0], x) + v[n] * Pow(x, n);
    }
  }

  /** Evaluation by nested multiplication, an independent formulation of Poly. */
  function Horner(c: seq<real>, x: real): real
  {
    if |c| == 0 then 0.0 else c[0] + x * Horner(c[1..], x)
  }

  lemma {:induction false} PolyPrepend(a: real, c: seq<real>, x: real)
    ensures Poly([a] + c, x) == a + x * Poly(c, x)
    decreases |c|
  {
    if |c| == 0 {
      assert [a] + c == [a];
      assert ([a] + c)[..0] == [];
    } else {
      var c' := c[..|c| - 1];
      assert ([a] + c)[..|c|] == [a] + c';
      PolyPrepend(a, c', x);
      var t, q := c[|c| - 1], Pow(x, |c| - 1);
      assert Poly([a] + c, x) == Poly([a] + c', x) + t * (q * x);
      assert Poly(c, x) == Poly(c', x) + t * q;
      FactorOut(a, x, Poly(c', x), t, q);
    }
  }

  /** a + x * p + t * (q * x) == a + x * (p + t * q): the factor x of the new top
      term joins the rest. */
  lemma FactorOut(a: real, x: real, p: real, t: real, q: real)
    ensures a + x * p + t * (q * x) == a + x * (p + t * q)
  {
  }

  /** The power-sum evaluation the source performs agrees with Horner's rule. */
  lemma {:induction false} PolyIsHorner(c: seq<real>, x: real)
    ensures Poly(c, x) == Horner(c, x)
    decreases |c|
  {
    if |c| > 0 {
      PolyIsHorner(c[1..], x);
      assert [c[0]] + c[1..] == c;
      PolyPrepend(c[0], c[1..], x);
    }
  }

  /** Evaluates the polynomial with coefficients c at x, one term c[k] * x^k at a
      time in ascending exponent order, starting from 0. It uses no state besides
      its arguments. */
  method Interpolate(c: seq<real>, x: real) returns (y: real)
    ensures y == Poly(c, x)
    ensures |c| == 0 ==> y == 0.0
    ensures y == Horner(c, x)
  {
    y := 0.0;
    for i := 0 to |c|
      invariant y == Poly(c[..i], x)
    {
      assert c[..i + 1][..i] == c[..i];
      y := y + c[i] * Pow(x, i);
    }
    assert c[..|c|] == c;
    PolyIsHorner(c, x);
  }
}

=== FILE: regression.dfy ===
/**
  The accumulating state of PolynomialRegression and getCoefficients.

  The state keeps running power sums: xPowers[k] is the sum of w * x^k and
  xyPowers[k] the sum of w * y' * x^k over the samples added since the last reset,
  where w is the sample's weight and y' is y minus the contribution of the forced
  coefficients. getCoefficients turns the sums into the normal equations of the
  least-squares fit (a Hankel matrix augmented with the cross sums), replaces the
  equation of every forced coefficient by "coefficient = forced value", and solves
  the system by Gauss-Jordan elimination.
 */
module Regression {
  import opened Results
  import opened Polynomial
  import opened LinearSystem
  import GaussJordan

  /** A weighting strategy: the weight of the sample at a 1-based position. */
  type Weighting = nat -> real

  /** A coefficient whose value is fixed rather than fitted. */
  datatype ForcedTerm = ForcedTerm(coefficient: nat, value: real)

  /** The regression object: the coefficient count it accumulates for, the power
      sums, the forced coefficients in the order they were first set, the number
      of samples added and the optional weighting strategy. */
  datatype State = State(
    numberOfCoefficient: nat,
    xPowers: seq<real>,
    xyPowers: seq<real>,
    forced: seq<ForcedTerm>,
    index: nat,
    weighting: Option<Weighting>)

  /** Number of power sums kept for n coefficients: exponents 0 .. 2(n - 1). */
  function SumCount(n: nat): nat
  {
    if n == 0 then 0 else 2 * (n - 1) + 1
  }

  /** The forced value of coefficient c, if c is forced (getForcedCoefficient):
      the value of the first term for c, and None when no term is for c. */
  function ForcedValue(forced: seq<ForcedTerm>, c: nat): (v: Option<real>)
    ensures v.None? <==> forall i :: 0 <= i < |forced| ==> forced[i].coefficient != c
    ensures v.Some? ==> exists i :: 0 <= i < |forced| && forced[i] == ForcedTerm(c, v.value)
  {
    if |forced| == 0 then None
    else if forced[0].coefficient == c then Some(forced[0].value)
    else ForcedValue(forced[1..], c)
  }

  predicate IsForced(forced: seq<ForcedTerm>, c: nat)
  {
    ForcedValue(forced, c).Some?
  }

  /** No coefficient is forced twice (the forced terms form a map). */
  predicate DistinctKeys(forced: seq<ForcedTerm>)
  {
    |forced| == 0 || (!IsForced(forced[1..], forced[0].coefficient) && DistinctKeys(forced[1..]))
  }

  /** The sum arrays match the coefficient count, as reset leaves them. */
  predicate Valid(s: State)
  {
    && |s.xPowers| == SumCount(s.numberOfCoefficient)
    && |s.xyPowers| == SumCount(s.numberOfCoefficient)
    && DistinctKeys(s.forced)
  }

  /** Clears all accumulated data, the forced coefficients and the weighting
      strategy, keeping the coefficient count. */
  function Reset(s: State): (r: State)
    ensures Valid(r)
    ensures r.numberOfCoefficient == s.numberOfCoefficient
    ensures |r.xPowers| == |r.xyPowers| == SumCount(s.numberOfCoefficient)
    ensures forall k :: 0 <= k < |r.xPowers| ==> r.xPowers[k] == 0.0 && r.xyPowers[k] == 0.0
    ensures r.forced == [] && r.index == 0 && r.weighting.None?
  {
    var squares := SumCount(s.numberOfCoefficient);
    State(s.numberOfCoefficient, seq(squares, _ => 0.0), seq(squares, _ => 0.0), [], 0, None)
  }

  /** A new regression object for n coefficients, in the state reset leaves. */
  function Create(n: nat := 3): (r: State)
    ensures Valid(r) && r.numberOfCoefficient == n
    ensures |r.xPowers| == |r.xyPowers| == SumCount(n)
    ensures forall k :: 0 <= k < |r.xPowers| ==> r.xPowers[k] == 0.0 && r.xyPowers[k] == 0.0
    ensures r.forced == [] && r.index == 0 && r.weighting.None?
    ensures Reset(r) == r
  {
    Reset(State(n, [], [], [], 0, None))
  }

  /** Forcing coefficient c to v: overwrites an earlier value for c in place,
      otherwise appends c. */
  function Put(forced: seq<ForcedTerm>, c: nat, v: real): (r: seq<ForcedTerm>)
    requires DistinctKeys(forced)
    ensures DistinctKeys(r)
    ensures forall c' :: ForcedValue(r, c') == (if c' == c then Some(v) else ForcedValue(forced, c'))
    ensures |r| == (if IsForced(forced, c) then |forced| else |forced| + 1)
  {
    if |forced| == 0 then [ForcedTerm(c, v)]
    else if forced[0].coefficient == c then [ForcedTerm(c, v)] + forced[1..]
    else
      var rest := Put(forced[1..], c, v);
      assert ([forced[0]] + rest)[1..] == rest;
      [forced[0]] + rest
  }

  /** setForcedCoefficient */
  function SetForcedCoefficient(s: State, c: nat, v: real): (r: State)
    requires Valid(s)
    ensures Valid(r)
    ensures ForcedValue(r.forced, c) == Some(v)
    ensures forall c' :: c' != c ==> ForcedValue(r.forced, c') == ForcedValue(s.forced, c')
    ensures r.xPowers == s.xPowers && r.xyPowers == s.xyPowers && r.index == s.index
    ensures r.numberOfCoefficient == s.numberOfCoefficient && r.weighting == s.weighting
  {
    s.(forced := Put(s.forced, c, v))
  }

  /** setWeighting */
  function SetWeighting(s: State, w: Weighting): (r: State)
    requires Valid(s)
    ensures Valid(r) && r.weighting == Some(w) && r.forced == s.forced
    ensures r.xPowers == s.xPowers && r.xyPowers == s.xyPowers && r.index == s.index
    ensures r.numberOfCoefficient == s.numberOfCoefficient
  {
    s.(weighting := Some(w))
  }

  /** The weight of the sample at 1-based position i: 1 without a strategy. */
  function WeightAt(w: Option<Weighting>, i: nat): real
  {
    match w
    case None => 1.0
    case Some(f) => f(i)
  }

  /** What one forced term contributes at x: value * x^coefficient. */
  function TermValue(t: ForcedTerm, x: real): real
  {
    Pow(x, t.coefficient) * t.value
  }

  /** The sum of value * x^coefficient over the forced terms. */
  function ForcedContribution(forced: seq<ForcedTerm>, x: real): real
  {
    if |forced| == 0 then 0.0
    else ForcedContribution(forced[..|forced| - 1], x) + TermValue(forced[|forced| - 1], x)
  }

  /** r is s after adding the sample (x, y): the position advances by one and the
      k-th sums grow by w * x^k and w * y' * x^k, where w is the weight at the new
      position and y' is y without the forced terms; nothing else changes. */
  ghost predicate Observed(s: State, x: real, y: real, r: State)
  {
    && r.numberOfCoefficient == s.numberOfCoefficient
    && r.forced == s.forced
    && r.weighting == s.weighting
    && r.index == s.index + 1
    && var w, yc := WeightAt(s.weighting, r.index), y - ForcedContribution(s.forced, x);
    && r.xPowers == Plus(s.xPowers, WeightedPowers(w, x, |s.xPowers|))
    && r.xyPowers == Plus(s.xyPowers, Scale(yc, WeightedPowers(w, x, |s.xyPowers|)))
  }

  /** w * x^k for k < n: what a sample of weight w adds to the sums of x^k. */
  function WeightedPowers(w: real, x: real, n: nat): (p: seq<real>)
    ensures |p| == n
  {
    seq(n, k requires 0 <= k < n => w * Pow(x, k))
  }

  /** The first half of addData: y minus value * x^coefficient for every forced
      term, in the order the terms were set. */
  method RemoveForced(forced: seq<ForcedTerm>, x: real, y: real) returns (yc: real)
    ensures yc == y - ForcedContribution(forced, x)
  {
    yc := y;
    for i := 0 to |forced|
      invariant yc == y - ForcedContribution(forced[..i], x)
    {
      assert forced[..i + 1][..i] == forced[..i];
      var sub := Pow(x, forced[i].coefficient);
      sub := sub * forced[i].value;
      yc := yc - sub;
    }
    assert forced[..|forced|] == forced;
  }

  /** The second half of addData: adds w * x^k and yc * w * x^k to the k-th sums,
      with x^k kept as a running product and w the weight (1 when there is none). */
  method AccumulatePowers(xPowers: seq<real>, xyPowers: seq<real>, x: real, yc: real, weight: Option<real>)
    returns (xp: seq<real>, xyp: seq<real>)
    requires |xPowers| == |xyPowers|
    ensures xp == Plus(xPowers, WeightedPowers(weight.GetOr(1.0), x, |xPowers|))
    ensures xyp == Plus(xyPowers, Scale(yc, WeightedPowers(weight.GetOr(1.0), x, |xyPowers|)))
  {
    ghost var w := weight.GetOr(1.0);
    ghost var inc := WeightedPowers(w, x, |xPowers|);
    ghost var incY := Scale(yc, inc);
    xp, xyp := [], [];
    var xSum := 1.0;
    for k := 0 to |xPowers|
      invariant xSum == Pow(x, k)
      invariant AddedPrefix(xp, xPowers, inc, k) && AddedPrefix(xyp, xyPowers, incY, k)
    {
      var accumulator := xSum;
      if weight.Some? {
        ScaleEqual(weight.value, xSum, Pow(x, k));
        accumulator := accumulator * weight.value;
      }
      assert accumulator == inc[k];
      ScaleEqual(yc, accumulator, w * Pow(x, k));
      AddedPrefixStep(xp, xPowers, inc, k, accumulator);
      AddedPrefixStep(xyp, xyPowers, incY, k, yc * accumulator);
      xp := xp + [xPowers[k] + accumulator];
      xyp := xyp + [xyPowers[k] + yc * accumulator];
      ScaleEqual(x, xSum, Pow(x, k));
      xSum := xSum * x;
    }
    AddedPrefixAll(xp, xPowers, inc);
    AddedPrefixAll(xyp, xyPowers, incY);
  }

  /** cur holds the first k entries of base, each with the matching entry of delta
      added. */
  ghost predicate AddedPrefix(cur: seq<real>, base: seq<real>, delta: seq<real>, k: nat)
  {
    && |cur| == k <= |base| == |delta|
    && forall j :: 0 <= j < k ==> cur[j] == base[j] + delta[j]
  }

  lemma AddedPrefixStep(cur: seq<real>, base: seq<real>, delta: seq<real>, k: nat, a: real)
    requires AddedPrefix(cur, base, delta, k) && k < |base| && a == delta[k]
    ensures AddedPrefix(cur + [base[k] + a], base, delta, k + 1)
  {
    var cur' := cur + [base[k] + a];
    forall j | 0 <= j < k + 1
      ensures cur'[j] == base[j] + delta[j]
    {
      if j < k {
        assert cur'[j] == cur[j];
      }
    }
  }

  lemma AddedPrefixAll(cur: seq<real>, base: seq<real>, delta: seq<real>)
    requires AddedPrefix(cur, base, delta, |base|)
    ensures cur == Plus(base, delta)
  {
  }

  lemma ScaleEqual(c: real, a: real, b: real)
    requires a == b
    ensures c * a == c * b
  {
  }

  /** addData: removes the forced terms from y, then adds the weighted powers of
      x into the sums. */
  method AddData(s: State, x: real, y: real) returns (r: State)
    requires Valid(s)
    ensures Valid(r)
    ensures Observed(s, x, y, r)
  {
    var index := s.index + 1;
    var weight: Option<real> := None;
    if s.weighting.Some? {
      weight := Some(s.weighting.value(index));
    }
    assert weight.GetOr(1.0) == WeightAt(s.weighting, index);
    var yc := RemoveForced(s.forced, x, y);
    var xp, xyp := AccumulatePowers(s.xPowers, s.xyPowers, x, yc, weight);
    r := s.(index := index, xPowers := xp, xyPowers := xyp);
  }

  /** The sum, over the samples, of w_i * x_i^k, where sample i sits at position
      start + i + 1. */
  function WeightedPowerSum(w: Option<Weighting>, start: nat, samples: seq<Sample>, k: nat): real
  {
    if |samples| == 0 then 0.0
    else
      var i := |samples| - 1;
      WeightedPowerSum(w, start, samples[..i], k) + WeightAt(w, start + i + 1) * Pow(samples[i].x, k)
  }

  /** The sum, over the samples, of w_i * y'_i * x_i^k, with y' as in Observed. */
  function WeightedCrossSum(w: Option<Weighting>, forced: seq<ForcedTerm>, start: nat, samples: seq<Sample>, k: nat): real
  {
    if |samples| == 0 then 0.0
    else
      var i := |samples| - 1;
      WeightedCrossSum(w, forced, start, samples[..i], k)
        + (samples[i].y - ForcedContribution(forced, samples[i].x)) * (WeightAt(w, start + i + 1) * Pow(samples[i].x, k))
  }

  /** states[i + 1] is states[i] after adding samples[i]. */
  ghost predicate IsRun(states: seq<State>, samples: seq<Sample>)
  {
    && |states| == |samples| + 1
    && forall i :: 0 <= i < |samples| ==> Observed(states[i], samples[i].x, samples[i].y, states[i + 1])
  }

  /** After a run of additions every sum has grown by exactly the weighted sum of
      its power over the added samples, and the position by their number. */
  lemma {:induction false} RunSums(states: seq<State>, samples: seq<Sample>)
    requires IsRun(states, samples)
    ensures var first, last := states[0], states[|samples|];
      && last.numberOfCoefficient == first.numberOfCoefficient
      && last.forced == first.forced
      && last.weighting == first.weighting
      && last.index == first.index + |samples|
      && |last.xPowers| == |first.xPowers|
      && |last.xyPowers| == |first.xyPowers|
      && (forall k :: 0 <= k < |first.xPowers| ==>
            last.xPowers[k] == first.xPowers[k] + WeightedPowerSum(first.weighting, first.index, samples, k))
      && (forall k :: 0 <= k < |first.xyPowers| ==>
            last.xyPowers[k] == first.xyPowers[k] + WeightedCrossSum(first.weighting, first.forced, first.index, samples, k))
  {
    if |samples| > 0 {
      var n := |samples| - 1;
      var prefix := states[..n + 1];
      assert IsRun(prefix, samples[..n]) by {
        forall i | 0 <= i < n
          ensures Observed(prefix[i], samples[..n][i].x, samples[..n][i].y, prefix[i + 1])
        {
          assert Observed(states[i], samples[i].x, samples[i].y, states[i + 1]);
        }
      }
      RunSums(prefix, samples[..n]);
      assert Observed(states[n], samples[n].x, samples[n].y, states[n + 1]);
    }
  }

  /** Starting from reset sums (all zero), the sums after a run are the weighted
      power sums of the samples themselves. */
  lemma {:induction false} SumsSinceReset(states: seq<State>, samples: seq<Sample>)
    requires IsRun(states, samples)
    requires forall k :: 0 <= k < |states[0].xPowers| ==> states[0].xPowers[k] == 0.0
    requires forall k :: 0 <= k < |states[0].xyPowers| ==> states[0].xyPowers[k] == 0.0
    ensures var first, last := states[0], states[|samples|];
      && (forall k :: 0 <= k < |last.xPowers| ==>
            last.xPowers[k] == WeightedPowerSum(first.weighting, first.index, samples, k))
      && (forall k :: 0 <= k < |last.xyPowers| ==>
            last.xyPowers[k] == WeightedCrossSum(first.weighting, first.forced, first.index, samples, k))
  {
    RunSums(states, samples);
  }

  /** The augmented normal-equation matrix for m coefficients: entry (r, c) is the
      power sum of exponent r + c, and the right-hand side of row r is the cross
      sum of exponent r. */
  function NormalMatrix(xPowers: seq<real>, xyPowers: seq<real>, m: nat): (M: Matrix)
    requires SumCount(m) <= |xPowers| && m <= |xyPowers|
    ensures Shape(M, m)
    ensures forall r, c :: 0 <= r < m && 0 <= c < m ==> M[r][c] == M[c][r]
    ensures forall r, c :: 0 <= r < m && 0 <= c < m ==> M[r][c] == xPowers[r + c]
    ensures forall r :: 0 <= r < m ==> M[r][m] == xyPowers[r]
  {
    seq(m, r requires 0 <= r < m =>
      seq(m + 1, c requires 0 <= c <= m => if c < m then xPowers[r + c] else xyPowers[r]))
  }

  /** The matrix for m coefficients depends only on the first 2(m - 1) + 1 power
      sums and the first m cross sums. */
  lemma NormalMatrixUsesPrefix(xPowers: seq<real>, xyPowers: seq<real>, m: nat)
    requires SumCount(m) <= |xPowers| && m <= |xyPowers|
    ensures NormalMatrix(xPowers, xyPowers, m) == NormalMatrix(xPowers[..SumCount(m)], xyPowers[..m], m)
  {
    var A := NormalMatrix(xPowers, xyPowers, m);
    var B := NormalMatrix(xPowers[..SumCount(m)], xyPowers[..m], m);
    forall r | 0 <= r < m
      ensures A[r] == B[r]
    {
      assert forall c :: 0 <= c < m ==> A[r][c] == B[r][c];
    }
  }

  /** Every forced coefficient fits in m coefficients. */
  predicate ForcedFit(forced: seq<ForcedTerm>, m: nat)
  {
    forall i :: 0 <= i < |forced| ==> forced[i].coefficient < m
  }

  /** Replaces the equation of one forced coefficient c by c = value: row c and
      column c become 0 except for a 1 on the diagonal, and the right-hand side of
      row c becomes the forced value. */
  function ForceTerm(M: Matrix, t: ForcedTerm, m: nat): (F: Matrix)
    requires Shape(M, m) && t.coefficient < m
    ensures Shape(F, m)
    ensures IsUnitRow(F[t.coefficient], t.coefficient, m) && F[t.coefficient][m] == t.value
    ensures forall r :: 0 <= r < m && r != t.coefficient ==> F[r][t.coefficient] == 0.0
    ensures forall r, k :: 0 <= r < m && r != t.coefficient && 0 <= k <= m && k != t.coefficient ==>
      F[r][k] == M[r][k]
  {
    seq(m, r requires 0 <= r < m =>
      seq(m + 1, k requires 0 <= k <= m =>
        if r == t.coefficient then (if k == r then 1.0 else if k == m then t.value else 0.0)
        else if k == t.coefficient then 0.0
        else M[r][k]))
  }

  /** The forced terms as a map from coefficient to value; an earlier term wins,
      as in ForcedValue. */
  function ForcedMap(forced: seq<ForcedTerm>): (fm: map<nat, real>)
    ensures forall c :: c in fm <==> IsForced(forced, c)
    ensures forall c :: c in fm ==> ForcedValue(forced, c) == Some(fm[c])
  {
    if |forced| == 0 then map[]
    else ForcedMap(forced[1..])[forced[0].coefficient := forced[0].value]
  }

  /** F is M with the equations of the forced coefficients replaced: a forced
      coefficient's row is its unit row with the forced value on the right, its
      column is zero off the diagonal, and every entry outside the forced rows and
      columns is M's. */
  predicate ForcedSystem(M: Matrix, fm: map<nat, real>, m: nat, F: Matrix)
    requires Shape(M, m) && Shape(F, m)
  {
    && (forall r :: 0 <= r < m && r in fm ==> IsUnitRow(F[r], r, m) && F[r][m] == fm[r])
    && (forall r, c :: 0 <= r < m && 0 <= c < m && r != c && c in fm ==> F[r][c] == 0.0)
    && (forall r, k :: 0 <= r < m && 0 <= k <= m && r !in fm && (k == m || k !in fm) ==> F[r][k] == M[r][k])
  }

  /** The first term's coefficient is not forced again by the rest. */
  lemma DistinctHead(forced: seq<ForcedTerm>)
    requires |forced| > 0 && DistinctKeys(forced)
    ensures forced[0].coefficient !in ForcedMap(forced[1..]) && DistinctKeys(forced[1..])
  {
  }

  /** Forcing one more coefficient c0, not yet forced, on top of a forced system:
      if G is M with c0's equation replaced and F is G with the equations of fm
      replaced, then F is M with the equations of fm and c0 replaced. */
  lemma ForcedSystemStep(M: Matrix, G: Matrix, F: Matrix, fm: map<nat, real>, c0: nat, v0: real, m: nat)
    requires Shape(M, m) && Shape(G, m) && Shape(F, m)
    requires c0 < m && c0 !in fm
    requires IsUnitRow(G[c0], c0, m) && G[c0][m] == v0
    requires forall r :: 0 <= r < m && r != c0 ==> G[r][c0] == 0.0
    requires forall r, k :: 0 <= r < m && r != c0 && 0 <= k <= m && k != c0 ==> G[r][k] == M[r][k]
    requires ForcedSystem(G, fm, m, F)
    ensures ForcedSystem(M, fm[c0 := v0], m, F)
  {
    StepRows(G, F, fm, c0, v0, m);
    StepColumns(G, F, fm, c0, v0, m);
    StepKept(M, G, F, fm, c0, v0, m);
  }

  lemma StepRows(G: Matrix, F: Matrix, fm: map<nat, real>, c0: nat, v0: real, m: nat)
    requires Shape(G, m) && Shape(F, m)
    requires c0 < m && c0 !in fm
    requires IsUnitRow(G[c0], c0, m) && G[c0][m] == v0
    requires ForcedSystem(G, fm, m, F)
    ensures forall r :: 0 <= r < m && r in fm[c0 := v0] ==> IsUnitRow(F[r], r, m) && F[r][m] == fm[c0 := v0][r]
  {
    forall r | 0 <= r < m && r in fm[c0 := v0]
      ensures IsUnitRow(F[r], r, m) && F[r][m] == fm[c0 := v0][r]
    {
      if r == c0 {
        HeadRowKept(G, fm, m, F, c0);
      } else {
        ForcedUnit(G, fm, m, F, r);
      }
    }
  }

  lemma StepColumns(G: Matrix, F: Matrix, fm: map<nat, real>, c0: nat, v0: real, m: nat)
    requires Shape(G, m) && Shape(F, m)
    requires c0 < m && c0 !in fm
    requires forall r :: 0 <= r < m && r != c0 ==> G[r][c0] == 0.0
    requires ForcedSystem(G, fm, m, F)
    ensures forall r, c :: 0 <= r < m && 0 <= c < m && r != c && c in fm[c0 := v0] ==> F[r][c] == 0.0
  {
    forall r, c | 0 <= r < m && 0 <= c < m && r != c && c in fm[c0 := v0]
      ensures F[r][c] == 0.0
    {
      if c in fm {
        ForcedZero(G, fm, m, F, r, c);
      } else if r in fm {
        ForcedUnit(G, fm, m, F, r);
        assert F[r][c] == 0.0;
      } else {
        ForcedKeeps(G, fm, m, F, r, c);
      }
    }
  }

  lemma StepKept(M: Matrix, G: Matrix, F: Matrix, fm: map<nat, real>, c0: nat, v0: real, m: nat)
    requires Shape(M, m) && Shape(G, m) && Shape(F, m)
    requires c0 < m && c0 !in fm
    requires forall r, k :: 0 <= r < m && r != c0 && 0 <= k <= m && k != c0 ==> G[r][k] == M[r][k]
    requires ForcedSystem(G, fm, m, F)
    ensures forall r, k :: 0 <= r < m && 0 <= k <= m && r !in fm[c0 := v0] && (k == m || k !in fm[c0 := v0]) ==>
      F[r][k] == M[r][k]
  {
    forall r, k | 0 <= r < m && 0 <= k <= m && r !in fm[c0 := v0] && (k == m || k !in fm[c0 := v0])
      ensures F[r][k] == M[r][k]
    {
      ForcedKeeps(G, fm, m, F, r, k);
    }
  }

  /** A row that is a unit row in G and not forced again stays a unit row with the
      same right-hand side. */
  lemma HeadRowKept(G: Matrix, fm: map<nat, real>, m: nat, F: Matrix, c0: nat)
    requires Shape(G, m) && Shape(F, m) && ForcedSystem(G, fm, m, F)
    requires c0 < m && c0 !in fm && IsUnitRow(G[c0], c0, m)
    ensures IsUnitRow(F[c0], c0, m) && F[c0][m] == G[c0][m]
  {
    forall k | 0 <= k < m
      ensures F[c0][k] == (if k == c0 then 1.0 else 0.0)
    {
      if k in fm {
        ForcedZero(G, fm, m, F, c0, k);
      } else {
        ForcedKeeps(G, fm, m, F, c0, k);
      }
    }
    ForcedKeeps(G, fm, m, F, c0, m);
  }

  /** An entry outside the forced rows and columns is kept. */
  lemma ForcedKeeps(M: Matrix, fm: map<nat, real>, m: nat, F: Matrix, r: nat, k: nat)
    requires Shape(M, m) && Shape(F, m) && ForcedSystem(M, fm, m, F)
    requires r < m && k <= m && r !in fm && (k == m || k !in fm)
    ensures F[r][k] == M[r][k]
  {
  }

  /** A forced row is its unit row with the forced value on the right. */
  lemma ForcedUnit(M: Matrix, fm: map<nat, real>, m: nat, F: Matrix, r: nat)
    requires Shape(M, m) && Shape(F, m) && ForcedSystem(M, fm, m, F)
    requires r < m && r in fm
    ensures IsUnitRow(F[r], r, m) && F[r][m] == fm[r]
  {
  }

  /** An entry of a forced column off the diagonal is zero. */
  lemma ForcedZero(M: Matrix, fm: map<nat, real>, m: nat, F: Matrix, r: nat, c: nat)
    requires Shape(M, m) && Shape(F, m) && ForcedSystem(M, fm, m, F)
    requires r < m && c < m && r != c && c in fm
    ensures F[r][c] == 0.0
  {
  }

  /** Applies every forced term in turn. Each forced coefficient ends up with the
      equation "coefficient = forced value", decoupled from all others, while
      every entry outside the forced rows and columns keeps its value. */
  function ApplyForced(M: Matrix, forced: seq<ForcedTerm>, m: nat): (F: Matrix)
    requires Shape(M, m) && ForcedFit(forced, m) && DistinctKeys(forced)
    ensures Shape(F, m)
    ensures ForcedSystem(M, ForcedMap(forced), m, F)
    decreases |forced|
  {
    if |forced| == 0 then M
    else
      assert ForcedFit(forced[1..], m);
      DistinctHead(forced);
      var G := ForceTerm(M, forced[0], m);
      var F := ApplyForced(G, forced[1..], m);
      ForcedSystemStep(M, G, F, ForcedMap(forced[1..]), forced[0].coefficient, forced[0].value, m);
      F
  }

  /** The number of coefficients asked for: the stored count by default. */
  function RequestedCount(s: State, requested: Option<nat>): nat
  {
    requested.GetOr(s.numberOfCoefficient)
  }

  /** The first forced coefficient that does not fit in m coefficients, if any. */
  function FirstForcedOutOfRange(forced: seq<ForcedTerm>, m: nat): (r: Option<nat>)
    ensures r.None? <==> ForcedFit(forced, m)
    ensures r.Some? ==> IsForced(forced, r.value) && r.value >= m
  {
    if |forced| == 0 then None
    else if forced[0].coefficient >= m then
      assert !ForcedFit(forced, m) by {
        assert forced[0].coefficient >= m;
      }
      Some(forced[0].coefficient)
    else
      var rest := FirstForcedOutOfRange(forced[1..], m);
      assert ForcedFit(forced, m) <==> ForcedFit(forced[1..], m) by {
        assert forall i :: 1 <= i < |forced| ==> forced[i] == forced[1..][i - 1];
      }
      assert rest.Some? ==> ForcedValue(forced, rest.value) == ForcedValue(forced[1..], rest.value);
      rest
  }

  /** The system getCoefficients solves for m coefficients. */
  function System(s: State, m: nat): (M: Matrix)
    requires Valid(s) && m <= s.numberOfCoefficient && ForcedFit(s.forced, m)
    ensures Shape(M, m)
  {
    assert SumCount(m) <= SumCount(s.numberOfCoefficient);
    ApplyForced(NormalMatrix(s.xPowers, s.xyPowers, m), s.forced, m)
  }

  /** getCoefficients: the coefficients of the fitted polynomial in ascending
      exponent order. They are the one solution of the forced normal equations, and
      every forced coefficient comes back as exactly its forced value. Asking for
      more coefficients than were accumulated and forcing a coefficient beyond the
      requested count are reported as failures; otherwise the only failure is a
      system without a unique solution. */
  method GetCoefficients(s: State, requested: Option<nat> := None) returns (result: Result<seq<real>>)
    requires Valid(s)
    ensures var m := RequestedCount(s, requested);
      m > s.numberOfCoefficient ==> result == Failure(RequestExceedsAccumulated(m, s.numberOfCoefficient))
    ensures var m := RequestedCount(s, requested);
      m <= s.numberOfCoefficient && !ForcedFit(s.forced, m) ==>
        result.Failure? && result.error.ForcedOutOfRange?
        && IsForced(s.forced, result.error.coefficient) && result.error.coefficient >= m
    ensures var m := RequestedCount(s, requested);
      result.Success? ==>
        && m <= s.numberOfCoefficient && ForcedFit(s.forced, m)
        && |result.value| == m
        && Solves(System(s, m), result.value, m)
        && (forall x :: Solves(System(s, m), x, m) ==> x == result.value)
    ensures var m := RequestedCount(s, requested);
      result.Success? ==>
        forall c :: 0 <= c < m && IsForced(s.forced, c) ==> result.value[c] == ForcedValue(s.forced, c).value
    ensures var m := RequestedCount(s, requested);
      m <= s.numberOfCoefficient && ForcedFit(s.forced, m) && result.Failure? ==>
        && result.error.SingularMatrix? && result.error.column < m
        && NoUniqueSolution(System(s, m), m)
  {
    var m := RequestedCount(s, requested);
    if m > s.numberOfCoefficient {
      return Failure(RequestExceedsAccumulated(m, s.numberOfCoefficient));
    }
    var outOfRange := FirstForcedOutOfRange(s.forced, m);
    if outOfRange.Some? {
      return Failure(ForcedOutOfRange(outOfRange.value));
    }
    var M := System(s, m);
    var solution := GaussJordan.Solve(M, m);
    match solution
    case Singular(column) =>
      return Failure(SingularMatrix(column));
    case Solved(coefficients) =>
      forall c | 0 <= c < m && IsForced(s.forced, c)
        ensures coefficients[c] == ForcedValue(s.forced, c).value
      {
        ForcedUnit(NormalMatrix(s.xPowers, s.xyPowers, m), ForcedMap(s.forced), m, M, c);
        UnitRowFixes(M[c], coefficients, c, m);
      }
      return Success(coefficients);
  }

  /** The system for m coefficients depends only on the forced terms and on the
      sums of exponent below 2(m - 1) + 1, so two states that agree on those give
      the same system. */
  lemma SystemUsesPrefix(b: State, t: State, m: nat)
    requires Valid(b) && Valid(t) && t.numberOfCoefficient == m && m <= b.numberOfCoefficient
    requires b.forced == t.forced && ForcedFit(t.forced, m)
    requires forall k :: 0 <= k < |t.xPowers| ==> b.xPowers[k] == t.xPowers[k]
    requires forall k :: 0 <= k < |t.xyPowers| ==> b.xyPowers[k] == t.xyPowers[k]
    ensures System(b, m) == System(t, m)
  {
    assert SumCount(m) <= SumCount(b.numberOfCoefficient);
    assert b.xPowers[..SumCount(m)] == t.xPowers;
    assert b.xyPowers[..SumCount(m)] == t.xyPowers;
    assert m <= SumCount(m);
    assert t.xPowers[..SumCount(m)] == t.xPowers;
    assert t.xyPowers[..m] == b.xyPowers[..m];
    NormalMatrixUsesPrefix(b.xPowers, b.xyPowers, m);
    NormalMatrixUsesPrefix(t.xPowers, t.xyPowers, m);
    assert NormalMatrix(b.xPowers, b.xyPowers, m) == NormalMatrix(t.xPowers, t.xyPowers, m);
  }

  /** Asking a larger regression for fewer coefficients gives the same system as a
      regression accumulated for exactly that many over the same samples: the
      sums it needs are the leading sums of the larger run. */
  lemma {:induction false} LowerCountSameSystem(big: seq<State>, small: seq<State>, samples: seq<Sample>)
    requires IsRun(big, samples) && IsRun(small, samples)
    requires Valid(big[0]) && Valid(small[0])
    requires small[0].numberOfCoefficient <= big[0].numberOfCoefficient
    requires big[0].index == small[0].index && big[0].forced == small[0].forced
    requires big[0].weighting == small[0].weighting
    requires forall k :: 0 <= k < |small[0].xPowers| ==> small[0].xPowers[k] == big[0].xPowers[k]
    requires forall k :: 0 <= k < |small[0].xyPowers| ==> small[0].xyPowers[k] == big[0].xyPowers[k]
    ensures var m, b, t := small[0].numberOfCoefficient, big[|samples|], small[|samples|];
      && b.numberOfCoefficient == big[0].numberOfCoefficient && t.numberOfCoefficient == m
      && b.forced == t.forced && Valid(b) && Valid(t)
      && (ForcedFit(t.forced, m) ==> System(b, m) == System(t, m))
  {
    RunSums(big, samples);
    RunSums(small, samples);
    var m, b, t := small[0].numberOfCoefficient, big[|samples|], small[|samples|];
    if ForcedFit(t.forced, m) {
      SystemUsesPrefix(b, t, m);
    }
  }
}

=== FILE: results.dfy ===
/**
  Optional values and the distinguishable failures of the regression: the cases
  where DrQue\PolynomialRegression would index past its arrays or divide by zero are
  reported here as errors instead.
 */
module Results {

  datatype Option<T> = None | Some(value: T)
  {
    function GetOr(default: T): T
    {
      match this
      case None => default
      case Some(v) => v
    }
  }

  datatype Error =
    | RequestExceedsAccumulated(requested: nat, accumulated: nat)
    | ForcedOutOfRange(coefficient: nat)
    | SingularMatrix(column: nat)
    | EmptyData
    | ZeroVariance

  datatype Result<T> = Success(value: T) | Failure(error: Error)
}
